=== FILE: README.md ===
# BoutDuTunnel: the tunnel service registry and the gateway polling loop

BoutDuTunnel carries TCP connections through a tunnel made of request/response
calls. The model covers two parts of it.

- **The server-side `Tunnel` service.** It keeps a registry of logged-in
  sessions keyed by a session id (sid). Each session holds its outbound
  connections, keyed by a connection id (cid). The service answers Login,
  Logout, Connect, Disconnect, Read, Write, Monitor, KillSession and
  KillConnection.
- **The client-side `Gateway`.** It pumps bytes between one local socket and
  the tunnel. An adaptive polling loop does the work: the interval resets to
  10 ms on traffic and backs off by ×1.1 up to 5000 ms when idle. A one-way
  stop latch ends the loop.

The registry is an immutable `map<int, Session>`, and each handler is a pure
function. It takes the registry, the request, the current time and what the
environment did: dial result, socket probe, bytes read, write fault, random
draw, dictionary enumeration order. It returns the new registry, the response,
the set of connections whose sockets it closed, and the bytes it put on an
outbound socket. A gateway loop iteration is a pure step from the polling
state and one `Observation` of the sockets and the tunnel to the next state,
the payload sent, and the bytes delivered locally.

Modules:

- `Base`: bytes, `Option`, message kinds, the cid-keyed transform, bounded reads.
- `Ids`: id generation.
- `Hex`: hexadecimal rendering of ids in the monitor listing.
- `SessionStore`: the registry, session and connection lookup, cascading removal, the registry invariant.
- `Tunnel`: the handlers.
- `TunnelProperties`: a request dispatcher, invariant preservation, no-leak, failure isolation, traces, monitor completeness.
- `Gateway`: wait time, backoff, one loop step, the guarded disconnect.
- `GatewayProperties`: runs of the loop, life cycle, end-to-end byte relay with the service.
- `Scenarios`: the three users of the test configuration.

Modelling decisions:

- Response messages are modelled as an enumeration of their kinds (`Note`), not as localised text.
- A response field the source never assigns keeps its .NET default. That is `false` or `0` (`UNSET_CID`), or `None` for a null payload.
- The body of `TunnelSession.CheckConnection` is not part of this model; its effect is modelled as:
  - a lookup of the cid in the session's connection map;
  - on success, the probe outcome reported in `Connected` and `DataAvailable`;
  - the connection's last-access time set to `now`.
- The body of `TunnelSession.AddConnection` is not part of this model either; its effect is modelled as drawing a cid with the same generator as sids, over the session's connection map.
- `Program.StaticXorEncoder` is a parameter `enc` of type `Encoder`, any transform that preserves length. It is never assumed to undo itself. The end-to-end lemmas state the round trip under `Involutive(enc)` as a hypothesis.
- `Math.Round(1.1 * p)` is modelled as a choice between floor and ceiling of 11p/10. Every property is proved for both.

## Model

| member | source | states |
|---|---|---|
| `Ids.NewId` | BdtServer/Service/Tunnel.cs:127-136 | the id is absent from the map, not below the random start, and every value between start and id is taken, so it is the first free one probing upward |
| `Ids.NewIdBound` | BdtServer/Service/Tunnel.cs:127-136 | the search ends after at most as many steps as the map has keys, so it cannot wrap while the draw plus the map's size fits in an int |
| `Hex.ToHex` | BdtServer/Service/Tunnel.cs:537 | the rendering of a non-negative id is non-empty, made only of lower-case hexadecimal digits, and has no leading zero unless the id is 0 |
| `Hex.Int32Hex` | BdtServer/Service/Tunnel.cs:537 | the rendering of any 32-bit id, negative ones included, is a non-empty string of lower-case hexadecimal digits |
| `Hex.ParseToHex` | BdtServer/Service/Tunnel.cs:537 | reading back the hexadecimal rendering of a non-negative id gives the id |
| `Hex.ToHexInjective` | BdtServer/Service/Tunnel.cs:537 | distinct non-negative ids render as distinct strings |
| `Hex.Int32HexRoundTrip` | BdtServer/Service/Tunnel.cs:537 | reading back the rendering of a 32-bit id gives its two's-complement bit pattern: the id when non-negative, the id plus 2^32 otherwise |
| `Hex.Int32HexInjective` | BdtServer/Service/Tunnel.cs:537 | distinct 32-bit ids, negative ones included, render as distinct strings |
| `Base.Take` | BdtServer/Service/Tunnel.cs:437-438 | a bounded stream read returns a prefix of the buffered bytes that is either the whole of them or exactly as long as the buffer |
| `SessionStore.CheckSession` | BdtServer/Service/Tunnel.cs:200-218 | an unknown sid yields failure, no session and an unchanged registry; a known sid yields success with an empty message and refreshes that session's last access alone |
| `SessionStore.CheckConnection` | BdtServer/Service/Tunnel.cs:390-391 | an unknown cid fails and changes nothing; a known cid succeeds, reports the probe and refreshes that connection alone |
| `SessionStore.RemoveSession` | BdtServer/Service/Tunnel.cs:295-296 | the session leaves the registry, every connection it owned is closed, all other sessions and connections stay live |
| `SessionStore.RemoveConnection` | BdtServer/Service/Tunnel.cs:401 | the connection leaves its session, which keeps its other connections and fields; it alone is reported closed; no session is added or removed and every other connection stays live |
| `Tunnel.Login` | BdtServer/Service/Tunnel.cs:227-277 | a disabled or unknown user is refused whatever the password, and so is an enabled one with a wrong password; both return sid -1 and leave the registry unchanged; success adds exactly one session under a fresh non-negative id with the user's name, configured admin flag, logon = last access = now, no connections, and the configured session and connection timeouts, a missing one replaced by 12 h and 1 h |
| `Tunnel.TimeoutOrDefault` | BdtServer/Service/Tunnel.cs:247-256 | a missing timeout override (int.MinValue) becomes the default, any other value is kept |
| `Tunnel.Logout` | BdtServer/Service/Tunnel.cs:286-310 | an unknown sid fails and changes nothing; otherwise the session and all its connections are removed and every other session is untouched |
| `Tunnel.Connect` | BdtServer/Service/Tunnel.cs:331-374 | an unknown sid fails; a refused dial reports cid -1 and keeps the session registered, refreshed, without a new connection; a successful dial adds one connection under a cid fresh in the session with zeroed counters and "?" when reverse lookup fails |
| `Tunnel.Disconnect` | BdtServer/Service/Tunnel.cs:383-413 | unknown sid or cid fails and removes nothing; otherwise exactly that connection is closed and removed and the response reports it neither connected nor readable |
| `Tunnel.Read` | BdtServer/Service/Tunnel.cs:422-473 | without both connected and readable the read succeeds with an empty payload; a read of count > 0 bytes returns count ≤ 32768 transformed bytes, the prefix of what the socket had, and adds count to the read counter; a read of zero bytes or a fault fails with no payload |
| `Tunnel.Write` | BdtServer/Service/Tunnel.cs:482-510 | on success the transformed payload goes out whole and the write counter grows by its length; on a socket fault the write fails and no counter moves |
| `Tunnel.Export` | BdtServer/Service/Tunnel.cs:531-546 | one row per enumerated session id, in enumeration order, each describing that session |
| `Tunnel.Describe` | BdtServer/Service/Tunnel.cs:535-542 | a monitor row carries the session's user, admin flag, logon and last-access times and connections, and its id text reads back as the 32-bit pattern of the sid |
| `Tunnel.Monitor` | BdtServer/Service/Tunnel.cs:519-566 | only an admin gets the listing; a non-admin gets failure and no listing; no session or connection is added or removed, only last-access times refresh |
| `Tunnel.KillSession` | BdtServer/Service/Tunnel.cs:575-613 | the target is checked before the caller; an unknown or non-admin caller fails and removes nothing; an admin's kill closes every connection of the target and removes it, leaving all other sessions intact |
| `Tunnel.KillConnection` | BdtServer/Service/Tunnel.cs:622-665 | target session, target connection, then caller are checked; an unknown caller fails with its session id not found and a non-admin one with admin required, both reporting the probe's state, and neither removes anything; an admin's kill closes and removes exactly the target connection, leaves the target session's other connections and fields as they were apart from its last access, and only refreshes the admin's session |
| `Tunnel.KillAuthorized` | BdtServer/Service/Tunnel.cs:632-663 | once the target connection exists, an unknown caller fails and changes nothing, a non-admin caller is refused with only its session refreshed, and an admin's request closes and removes exactly that connection |
| `TunnelProperties.LoginKeepsValid` | BdtServer/Service/Tunnel.cs:227-277 | Login preserves the registry invariant (non-negative ids, no time after now, logon ≤ last access, non-negative counters) |
| `TunnelProperties.ConnectKeepsValid` | BdtServer/Service/Tunnel.cs:331-374 | Connect preserves the registry invariant |
| `TunnelProperties.DisconnectKeepsValid` | BdtServer/Service/Tunnel.cs:383-413 | Disconnect preserves the registry invariant |
| `TunnelProperties.ReadKeepsValid` | BdtServer/Service/Tunnel.cs:422-473 | Read preserves the registry invariant |
| `TunnelProperties.WriteKeepsValid` | BdtServer/Service/Tunnel.cs:482-510 | Write preserves the registry invariant |
| `TunnelProperties.KillSessionKeepsValid` | BdtServer/Service/Tunnel.cs:575-613 | KillSession preserves the registry invariant |
| `TunnelProperties.KillConnectionKeepsValid` | BdtServer/Service/Tunnel.cs:622-665 | KillConnection preserves the registry invariant |
| `TunnelProperties.HandlePreservesValid` | BdtServer/Service/Tunnel.cs:227-665 | every request, served at a time no earlier than the registry's, keeps the registry invariant |
| `TunnelProperties.ReplayKeepsValid` | BdtServer/Service/Tunnel.cs:227-665 | a chronological trace of requests keeps the registry invariant at the time of its last request |
| `TunnelProperties.FailureChangesOnlyAccess` | BdtServer/Service/Tunnel.cs:200-218 | a request that fails adds, removes and closes nothing and moves no counter; at most last-access times are set to now |
| `TunnelProperties.NoConnectionLeaks` | BdtServer/Service/Tunnel.cs:292-296 | a connection is live after any request exactly when it was live and not closed or was just created; only live connections are closed, only fresh ones created |
| `TunnelProperties.LoginIdsDistinct` | BdtServer/Service/Tunnel.cs:261-265 | two successful logins hand out distinct ids, both registered under their own user names |
| `TunnelProperties.DisconnectTwice` | BdtServer/Service/Tunnel.cs:383-413 | the first Disconnect removes the connection, the second finds no such connection and closes nothing |
| `TunnelProperties.ConnectThenDisconnect` | BdtServer/Service/Tunnel.cs:331-413 | what a successful Connect creates is exactly what the following Disconnect closes, restoring the session's connection map |
| `TunnelProperties.ReadSuccessCarriesData` | BdtServer/Service/Tunnel.cs:438-466 | a successful Read always carries a non-null payload of at most 32768 bytes |
| `TunnelProperties.DistinctCard` | BdtServer/Service/Tunnel.cs:533 | an enumeration without repeats has as many entries as the set of keys it lists |
| `TunnelProperties.RowIdsDistinct` | BdtServer/Service/Tunnel.cs:537 | on a valid registry the monitor rows carry pairwise distinct rendered ids |
| `TunnelProperties.ExportComplete` | BdtServer/Service/Tunnel.cs:531-546 | over an enumeration listing each id once, the export has one row per registered session, each describing it |
| `TunnelProperties.MonitorListsEverySession` | BdtServer/Service/Tunnel.cs:519-547 | an admin's listing has one row per session, in enumeration order, each describing the session it names, with distinct ids on a valid registry |
| `Gateway.WaitTime` | BdtClient/Sockets/Gateway.cs:139-149 | zero exactly when the last iteration overran the interval, otherwise the rest of the interval but at least 10; never above the interval when that is at least 10 and the overrun is non-negative |
| `Gateway.Grow` | BdtClient/Sockets/Gateway.cs:222-224 | idle backoff is min(round(1.1 × interval), 5000): within rounding of 1.1 × interval below the cap, never above the cap and never at it unless 1.1 × interval gets there; strictly grows below the cap from 10 upward, and sticks at 5000 |
| `Gateway.Rounded` | BdtClient/Sockets/Gateway.cs:223 | the rounded product lies within 0.9 of 1.1 × interval, so it is one of the two integers nearest to it |
| `Gateway.Chunk` | BdtClient/Sockets/Gateway.cs:190-203 | one local read yields at most 32768 bytes, a prefix of what was buffered, non-empty when something was buffered, nothing on a fault |
| `Gateway.Step` | BdtClient/Sockets/Gateway.cs:168-263 | a raised latch makes the iteration do nothing; a dead local socket raises it without touching the tunnel; the payload sent is exactly the transformed local chunk and nothing is sent for an empty one (interval unchanged); traffic either way resets the interval to 10; a failed Write, failed Read, Read reporting disconnection or failed local write raises the latch, as does a fault of the local probe or of the local read; a running loop raises the latch exactly when one of these causes occurs |
| `Gateway.Disconnect` | BdtClient/Sockets/Gateway.cs:274-285 | the call releases the local socket and issues the tunnel Disconnect exactly when the socket was still held |
| `GatewayProperties.RunStaysStopped` | BdtClient/Sockets/Gateway.cs:168 | from a raised latch no sequence of observations changes the state |
| `GatewayProperties.RunAppend` | BdtClient/Sockets/Gateway.cs:168-264 | running two observation sequences in turn equals running their concatenation |
| `GatewayProperties.StopIsFinal` | BdtClient/Sockets/Gateway.cs:108-129 | once a prefix of a run raises the stop latch, nothing later lowers it or changes the state |
| `GatewayProperties.RunPolltimeBounded` | BdtClient/Sockets/Gateway.cs:159-246 | along any run starting in [10, 5000] the interval stays in [10, 5000] |
| `GatewayProperties.BackoffBounds` | BdtClient/Sockets/Gateway.cs:220-225 | idle backoff from [10, 5000] stays there and gains at least one ms per iteration until the cap |
| `GatewayProperties.IdleRunBacksOff` | BdtClient/Sockets/Gateway.cs:220-251 | idle iterations keep the loop running and follow the ×1.1 backoff exactly |
| `GatewayProperties.TrafficResetsPolltime` | BdtClient/Sockets/Gateway.cs:199-246 | an iteration that sends local bytes or receives remote data resets the interval to 10 |
| `GatewayProperties.RunStopsExactlyOnCause` | BdtClient/Sockets/Gateway.cs:168-262 | a run ends exactly when it started stopped or one of its iterations met a stop cause |
| `GatewayProperties.Lifetime` | BdtClient/Sockets/Gateway.cs:156-267 | a failed Connect runs no loop and issues no Disconnect; otherwise the loop runs with its interval in [10, 5000] and ends, issuing Disconnect, exactly when some iteration met a stop cause |
| `GatewayProperties.FaultEndsLifetime` | BdtClient/Sockets/Gateway.cs:248-265 | a dead local socket, a failed Read or a Read reporting the remote end gone at any iteration stops the loop and issues Disconnect |
| `GatewayProperties.IdleLifetimeContinues` | BdtClient/Sockets/Gateway.cs:220-251 | a connected gateway seeing only idle iterations never stops and never issues Disconnect |
| `GatewayProperties.DisconnectAtMostOnce` | BdtClient/Sockets/Gateway.cs:274-285 | however many times Disconnect is called, the tunnel Disconnect is issued at most once |
| `GatewayProperties.RemoteBytesReachLocalSocket` | BdtClient/Sockets/Gateway.cs:229-246 | bytes the service reads from a readable outbound socket reach the local socket transformed by both sides, which gives back the bytes read when the transform undoes itself; the interval resets |
| `GatewayProperties.LocalBytesReachRemoteSocket` | BdtClient/Sockets/Gateway.cs:190-214 | the local chunk reaches the outbound socket transformed by both sides, which gives back the bytes read when the transform undoes itself, and the write counter grows by its length |
| `Scenarios.AdminLogin` | BdtTests/Configuration/TestConfigPackage.cs:69-71 | the admin test user logs in into an admin session with the default 12 h and 1 h timeouts |
| `Scenarios.DisabledUserRefused` | BdtTests/Configuration/TestConfigPackage.cs:73-74 | the disabled test user is refused with sid -1 whatever the password, registry unchanged |
| `Scenarios.UnknownUserRefused` | BdtServer/Service/Tunnel.cs:229-241 | a user absent from the configuration reads as disabled and is refused |
| `Scenarios.LambdaIsNotAdmin` | BdtTests/Configuration/TestConfigPackage.cs:76-78 | the non-admin test user logs in but may neither monitor nor kill a session, neither its own nor any other user's, and removes nothing |
| `Scenarios.AdminKillsLambda` | BdtServer/Service/Tunnel.cs:575-613 | the admin kills the non-admin user's session, keeps its own, and the killed session's next request is refused as unknown |

## Left out

- Handlers are modelled as running one at a time, each an atomic step of a trace. The service takes no lock: remoting calls run concurrently on the unsynchronised session dictionary, which `CheckerThread` also sweeps. So `TunnelProperties.LoginIdsDistinct` and `TunnelProperties.ReplayKeepsValid` hold only for requests that do not overlap.
- `GatewayProperties.Lifetime`: every tunnel call is modelled as returning a response. In the source the calls to the tunnel's Connect, Write and Read (BdtClient/Sockets/Gateway.cs:162, 205, 229) sit outside any `try`, and the loop has no `finally`. A transport fault there ends the thread without raising the latch, without the tunnel's Disconnect and without closing the local socket. That exit is not modelled, so "Disconnect exactly when some iteration met a stop cause" holds only for runs whose tunnel calls all return.
- Byte counters (`readCount`, `writeCount`) are unbounded integers. The declaration of `TunnelConnection.ReadCount`/`WriteCount` is not part of this model; a 32-bit counter would wrap after 2^31 bytes, which the model, and the non-negativity in the registry invariant, do not reflect.
- `Scenarios.AdminLogin`: the test configuration answers an unset key with an empty string (BdtTests/Configuration/TestConfigPackage.cs:93) and ignores the default it is given. The 12 h / 1 h timeouts and "an unknown user reads as disabled" therefore rest on how `ConfigPackage.ValueInt`/`ValueBool` treat an empty string; `ConfigPackage` is not part of this model, and the scenarios assume the default is taken. The same holds for `Scenarios.UnknownUserRefused`.
- Threads and waits: the `CheckerThread` timeout sweep and the gateway's thread spawn are left out, because they are concurrency. The stop signal is a boolean latch and the loop is a sequence of steps.
- Timeouts: `TunnelSession`, `TunnelConnection` and `TimeoutObject` are not part of this model. So the expiry of sessions and connections, and the timeout values' effect, are left out. The timeouts are only stored.
- `Version` is left out, because it is reflection over assembly metadata. Logging and message texts are left out; messages are kinds.
- Sockets and DNS are inputs, not modelled operations: TCP dial, `Poll`/`Available`/`DataAvailable`, stream reads and writes, and reverse lookup.
- `DateTime.Now` is an integer `now` parameter.
- The random draw of `GetNewId` is a `seed` parameter.
- `Ids.NewId`: the C# `key += 1` would wrap past `int.MaxValue`. The model uses unbounded integers. `Ids.NewIdBound` bounds the search by the map's size instead.
- `Tunnel.Disconnect`: a fault while closing the socket or formatting the remote end point (`SafeDisconnect`, `RemoteEndPoint`) is not modelled. The success path is always taken. The same holds for `Tunnel.KillConnection`.
- `Tunnel.Logout`: a fault inside `DisconnectAndRemoveAllConnections` is not modelled. The same holds for `Tunnel.KillSession`.
- `Tunnel.Monitor`: a fault while building the listing is not modelled.
- `Tunnel.Connect`: only the dial itself can fail in the model. A fault after it, in `DataAvailable` or `AddConnection`, is not modelled.
- The connections in a monitor row are the session's connection map. `GetConnectionsStruct` is not part of this model.
- `Gateway.Step`: a Read response with a null payload on the connected-and-readable path is treated as an empty payload. The service never sends one (`TunnelProperties.ReadSuccessCarriesData`); the client would fault on it.
- `Gateway.Grow`: `Math.Round(1.1 * p)` is a choice between floor and ceiling of 11p/10 rather than banker's rounding of a double.
- The .NET Remoting channel registration (`GenericRemoting`, `IpcRemoting`, `HttpBinaryRemoting`, `HttpSoapRemoting`) is left out, because it is plumbing over library types.

=== FILE: base.dfy ===
/** Definitions shared by the server-side tunnel and the client-side gateway:
    bytes, the optional value used in place of a null reference, the kinds of
    message a response carries, the connection-keyed byte transform and the
    bounded read of a socket. */
module Base {

  /** An octet, as carried by a .NET `byte[]`. */
  newtype byte = x: int | 0 <= x < 256

  /** Size of the transfer buffer, on both sides of the tunnel. */
  const BUFFER_SIZE: nat := 32768

  const INT_MIN: int := -0x8000_0000
  const INT_MAX: int := 0x7fff_ffff

  /** A value that may be absent (a null reference in the source). */
  datatype Option<+T> = None | Some(value: T) {
    function GetOr(default: T): T {
      match this
      case Some(v) => v
      case None => default
    }
  }

  /** The kind of message a response carries; the text itself is not modelled. */
  datatype Note =
    | NoMessage
    | SidNotFound
    | CidNotFound
    | AccessDenied
    | BadPassword
    | AccessGranted
    | SessionLogout
    | Connected
    | ConnectionRefused
    | Disconnected
    | DisconnectionDetected
    | AdminRequired
    | SessionKilled
    | ConnectionKilled
    | SocketFault

  /** The obfuscating transform applied to every payload, keyed by the
      connection id. Only its length preservation is relied upon. */
  type Encoder = f: (seq<byte>, int) -> seq<byte> | forall b, cid :: |f(b, cid)| == |b|
    witness (b: seq<byte>, cid: int) => b

  /** The bytes one `Stream.Read(buffer, 0, limit)` hands back when `data` is
      what the socket has buffered: a prefix of it, never longer than the buffer. */
  function Take(data: seq<byte>, limit: nat): (r: seq<byte>)
    ensures |r| <= limit && |r| <= |data|
    ensures |r| == limit || |r| == |data|
    ensures r == data[..|r|]
  {
    if |data| <= limit then data else data[..limit]
  }
}

=== FILE: gateway.dfy ===
/** The client-side gateway: one local socket driven through the tunnel by
    an adaptive polling loop. One loop iteration is a pure step over the
    polling state; everything the sockets and the tunnel do during it is an
    observation handed in. */
module Gateway {
  import opened Base
  import opened Protocol

  const STATE_POLLING_MIN_TIME: int := 10    // ms
  const STATE_POLLING_MAX_TIME: int := 5000  // ms
  /** The ×1.1 growth factor, as a fraction. */
  const FACTOR_NUM: int := 11
  const FACTOR_DEN: int := 10

  /** The loop's state between iterations: the polling interval, the duration
      of the previous iteration, and the stop latch. */
  datatype GatewayState = GatewayState(polltime: int, adjpolltime: int, stopped: bool)

  /** The state the loop starts in once Connect has succeeded. */
  const Initial: GatewayState := GatewayState(STATE_POLLING_MIN_TIME, 0, false)

  /** The local socket probe: `Probed` when it completed, `ProbeFault` when it
      threw, carrying the connected flag as it stood when the fault struck
      (false when the poll itself threw); the readable flag is then false. */
  datatype LocalProbe = Probed(connected: bool, dataAvailable: bool) | ProbeFault(connected: bool)

  /** One read of the local socket: the bytes it had buffered, or a fault. */
  datatype LocalRead = LocalReceived(bytes: seq<byte>) | LocalReadFault

  /** What one iteration observes: the local probe and read, the tunnel's
      Write and Read responses, whether writing to the local socket succeeded,
      which way the floating rounding of ×1.1 went, and the iteration's
      duration in ms. An input the iteration does not reach is ignored. */
  datatype Observation = Observation(
    probe: LocalProbe,
    localRead: LocalRead,
    writeResp: ContextResponse,
    readResp: ReadResponse,
    localWriteOk: bool,
    roundUp: bool,
    elapsed: int)

  /** The state after one iteration, the payload it passed to the tunnel's
      Write, whether it called the tunnel's Read, and the bytes it handed to
      the local socket's write (whether or not that write then succeeded, which
      `localWriteOk` tells). */
  datatype StepResult = StepResult(state: GatewayState, sent: Option<seq<byte>>, readIssued: bool, delivered: Option<seq<byte>>)

  /** How long the loop waits for the stop signal before the next iteration:
      nothing when the last iteration already overran the interval, otherwise
      the rest of the interval but never less than the minimum. */
  function WaitTime(polltime: int, adjpolltime: int): (w: int)
    ensures w == 0 <==> adjpolltime > polltime
    ensures w == 0 || STATE_POLLING_MIN_TIME <= w
    ensures adjpolltime <= polltime ==>
      && polltime - adjpolltime <= w
      && (w == polltime - adjpolltime || w == STATE_POLLING_MIN_TIME)
    ensures STATE_POLLING_MIN_TIME <= polltime && 0 <= adjpolltime ==> w <= polltime
  {
    if adjpolltime > polltime then 0
    else if polltime - adjpolltime < STATE_POLLING_MIN_TIME then STATE_POLLING_MIN_TIME
    else polltime - adjpolltime
  }

  /** `Math.Round(1.1 * p)`: one of the two integers nearest to 11p/10, the
      floating computation deciding which. */
  function Rounded(p: int, roundUp: bool): (r: int)
    ensures FACTOR_NUM * p - 9 <= FACTOR_DEN * r <= FACTOR_NUM * p + 9
  {
    if roundUp then (FACTOR_NUM * p + FACTOR_DEN - 1) / FACTOR_DEN else (FACTOR_NUM * p) / FACTOR_DEN
  }

  /** Idle backoff: the interval grows by ×1.1, capped at the maximum. From
      anywhere in [min, max] it stays there, and below the cap it strictly
      grows. */
  function Grow(polltime: int, roundUp: bool): (p: int)
    ensures p <= STATE_POLLING_MAX_TIME
    ensures p == STATE_POLLING_MAX_TIME || FACTOR_NUM * polltime - 9 <= FACTOR_DEN * p <= FACTOR_NUM * polltime + 9
    // the cap is only reached when ×1.1 gets there: no jump below it
    ensures FACTOR_DEN * p >= if FACTOR_NUM * polltime - 9 < FACTOR_DEN * STATE_POLLING_MAX_TIME
                              then FACTOR_NUM * polltime - 9 else FACTOR_DEN * STATE_POLLING_MAX_TIME
    ensures FACTOR_NUM * polltime + 9 < FACTOR_DEN * STATE_POLLING_MAX_TIME ==> p < STATE_POLLING_MAX_TIME
    ensures STATE_POLLING_MIN_TIME <= polltime ==> STATE_POLLING_MIN_TIME < p
    ensures STATE_POLLING_MIN_TIME <= polltime < STATE_POLLING_MAX_TIME ==> polltime < p
    ensures STATE_POLLING_MAX_TIME <= polltime ==> p == STATE_POLLING_MAX_TIME
  {
    var r := Rounded(polltime, roundUp);
    if r < STATE_POLLING_MAX_TIME then r else STATE_POLLING_MAX_TIME
  }

  /** The connected and readable flags after the probe's try/catch. */
  function LocalConnected(probe: LocalProbe): bool
  {
    match probe
    case Probed(c, _) => c
    case ProbeFault(c) => c
  }

  function LocalDataAvailable(probe: LocalProbe): bool
  {
    probe.Probed? && probe.dataAvailable
  }

  /** The bytes one local read yields: at most a buffer's worth; none on a fault. */
  function Chunk(read: LocalRead): (chunk: seq<byte>)
    ensures |chunk| <= BUFFER_SIZE
    ensures read.LocalReceived? ==> |chunk| <= |read.bytes| && chunk == read.bytes[..|chunk|]
    ensures read.LocalReceived? && |read.bytes| > 0 ==> |chunk| > 0
  {
    match read
    case LocalReceived(bytes) => Take(bytes, BUFFER_SIZE)
    case LocalReadFault => []
  }

  /** A reason the iteration raises the stop latch. */
  predicate StopCause(o: Observation)
  {
    || o.probe.ProbeFault?
    || !LocalConnected(o.probe)
    || (LocalDataAvailable(o.probe) && o.localRead.LocalReadFault?)
    || (LocalDataAvailable(o.probe) && |Chunk(o.localRead)| > 0 && !(o.writeResp.success && o.writeResp.connected))
    || !o.readResp.success
    || !o.readResp.connected
    || (o.readResp.dataAvailable && !o.localWriteOk)
  }

  /** One iteration of the communication loop. A raised latch means the wait
      returns at once and the loop is over: nothing happens. Otherwise: a
      dead local socket raises the latch; local data is read, transformed
      with the cid key and written to the tunnel, and resets the interval;
      no local data grows it; then the tunnel is read, and remote data is
      transformed, written locally, and resets the interval. Every failure,
      and the tunnel reporting the connection gone, raises the latch. */
  function Step(g: GatewayState, cid: int, enc: Encoder, o: Observation): (r: StepResult)
    // a raised latch stays raised and nothing more happens
    ensures g.stopped ==> r == StepResult(g, None, false, None)
    ensures !g.stopped ==> r.state.adjpolltime == o.elapsed
    // a dead local socket ends the loop without touching the tunnel
    ensures !g.stopped && !LocalConnected(o.probe) ==>
      r.state.stopped && r.sent == None && !r.readIssued && r.state.polltime == g.polltime
    ensures r.readIssued <==> !g.stopped && LocalConnected(o.probe)
    // what is sent is exactly the bytes read locally, transformed
    ensures r.sent.Some? <==> !g.stopped && LocalConnected(o.probe) && LocalDataAvailable(o.probe) && |Chunk(o.localRead)| > 0
    ensures r.sent.Some? ==> r.sent.value == enc(Chunk(o.localRead), cid) && r.state.polltime == STATE_POLLING_MIN_TIME
    // a failed or disconnected Write, Read, or local write ends the loop
    ensures r.sent.Some? && !(o.writeResp.success && o.writeResp.connected) ==> r.state.stopped
    ensures r.readIssued && !(o.readResp.success && o.readResp.connected) ==> r.state.stopped
    ensures r.delivered.Some? <==> r.readIssued && o.readResp.success && o.readResp.connected && o.readResp.dataAvailable
    ensures r.delivered.Some? ==>
      && r.delivered.value == enc(o.readResp.data.GetOr([]), cid)
      && r.state.polltime == STATE_POLLING_MIN_TIME
      && (!o.localWriteOk ==> r.state.stopped)
    // the interval: unchanged when local data yielded nothing, grown when idle
    ensures r.readIssued && r.delivered.None? && LocalDataAvailable(o.probe) && r.sent.None? ==>
      r.state.polltime == g.polltime
    ensures r.readIssued && r.delivered.None? && !LocalDataAvailable(o.probe) ==>
      r.state.polltime == Grow(g.polltime, o.roundUp)
    // a running loop raises the latch exactly when one of the causes occurred
    ensures !g.stopped ==> (r.state.stopped <==> StopCause(o))
    ensures STATE_POLLING_MIN_TIME <= g.polltime <= STATE_POLLING_MAX_TIME ==>
      STATE_POLLING_MIN_TIME <= r.state.polltime <= STATE_POLLING_MAX_TIME
  {
    if g.stopped then
      StepResult(g, None, false, None)
    else
      var probeFault := o.probe.ProbeFault?;
      if !LocalConnected(o.probe) then
        StepResult(GatewayState(g.polltime, o.elapsed, true), None, false, None)
      else
        // local socket to tunnel
        var chunk := Chunk(o.localRead);
        var readFault := LocalDataAvailable(o.probe) && o.localRead.LocalReadFault?;
        var sent: Option<seq<byte>> :=
          if LocalDataAvailable(o.probe) && |chunk| > 0 then Some(enc(chunk, cid)) else None;
        var writeStop := sent.Some? && !(o.writeResp.success && o.writeResp.connected);
        var poll :=
          if !LocalDataAvailable(o.probe) then Grow(g.polltime, o.roundUp)
          else if sent.Some? then STATE_POLLING_MIN_TIME
          else g.polltime;
        var stop := probeFault || readFault || writeStop;
        // tunnel to local socket
        var rr := o.readResp;
        if rr.success && rr.connected && rr.dataAvailable then
          var result := enc(rr.data.GetOr([]), cid);
          StepResult(GatewayState(STATE_POLLING_MIN_TIME, o.elapsed, stop || !o.localWriteOk), sent, true, Some(result))
        else
          StepResult(GatewayState(poll, o.elapsed, stop || !rr.success || !rr.connected), sent, true, None)
  }

  /** Releasing the local socket and telling the tunnel: guarded by the
      client still being held, which the call then drops. */
  datatype Closing = Closing(clientHeld: bool, disconnectIssued: bool)

  function Disconnect(clientHeld: bool): (r: Closing)
    ensures !r.clientHeld
    ensures r.disconnectIssued <==> clientHeld
  {
    if clientHeld then Closing(false, true) else Closing(false, false)
  }
}

=== FILE: gateway_properties.dfy ===
/** Properties of whole runs of the gateway loop, of its life cycle from
    Connect to Disconnect, and of the byte relay between the gateway and the
    tunnel service. */
module GatewayProperties {
  import opened Base
  import opened SessionStore
  import opened Protocol
  import opened Tunnel
  import opened Gateway

  /** The loop state after the iterations observing `obs`, in order. */
  function Run(g: GatewayState, cid: int, enc: Encoder, obs: seq<Observation>): GatewayState
    decreases |obs|
  {
    if |obs| == 0 then g else Run(Step(g, cid, enc, obs[0]).state, cid, enc, obs[1..])
  }

  /** Once the latch is raised no observation changes anything: the loop is over. */
  lemma {:induction false} RunStaysStopped(g: GatewayState, cid: int, enc: Encoder, obs: seq<Observation>)
    requires g.stopped
    ensures Run(g, cid, enc, obs) == g
    decreases |obs|
  {
    if |obs| > 0 {
      RunStaysStopped(Step(g, cid, enc, obs[0]).state, cid, enc, obs[1..]);
    }
  }

  lemma {:induction false} RunAppend(g: GatewayState, cid: int, enc: Encoder, a: seq<Observation>, b: seq<Observation>)
    ensures Run(g, cid, enc, a + b) == Run(Run(g, cid, enc, a), cid, enc, b)
    decreases |a|
  {
    if |a| == 0 {
      assert a + b == b;
    } else {
      var g' := Step(g, cid, enc, a[0]).state;
      assert (a + b)[0] == a[0];
      assert (a + b)[1..] == a[1..] + b;
      assert Run(g, cid, enc, a + b) == Run(g', cid, enc, a[1..] + b);
      RunAppend(g', cid, enc, a[1..], b);
    }
  }

  /** The stop signal is a one-way latch: once a prefix of a run has raised
      it, no later observation lowers it or changes the state. */
  lemma StopIsFinal(g: GatewayState, cid: int, enc: Encoder, a: seq<Observation>, b: seq<Observation>)
    requires Run(g, cid, enc, a).stopped
    ensures Run(g, cid, enc, a + b) == Run(g, cid, enc, a)
    ensures Run(g, cid, enc, a + b).stopped
  {
    RunAppend(g, cid, enc, a, b);
    RunStaysStopped(Run(g, cid, enc, a), cid, enc, b);
  }

  /** The polling interval never leaves [10, 5000] ms along any run that
      starts inside it, whatever happens. */
  lemma {:induction false} RunPolltimeBounded(g: GatewayState, cid: int, enc: Encoder, obs: seq<Observation>)
    requires STATE_POLLING_MIN_TIME <= g.polltime <= STATE_POLLING_MAX_TIME
    ensures STATE_POLLING_MIN_TIME <= Run(g, cid, enc, obs).polltime <= STATE_POLLING_MAX_TIME
    decreases |obs|
  {
    if |obs| > 0 {
      RunPolltimeBounded(Step(g, cid, enc, obs[0]).state, cid, enc, obs[1..]);
    }
  }

  /** The interval after idle iterations with the given rounding outcomes. */
  function Backoff(polltime: int, rounding: seq<bool>): int
    decreases |rounding|
  {
    if |rounding| == 0 then polltime else Backoff(Grow(polltime, rounding[0]), rounding[1..])
  }

  /** Idle backoff from inside [10, 5000] stays inside it and gains at least
      one ms per iteration until it reaches the cap. */
  lemma {:induction false} BackoffBounds(polltime: int, rounding: seq<bool>)
    requires STATE_POLLING_MIN_TIME <= polltime <= STATE_POLLING_MAX_TIME
    ensures STATE_POLLING_MIN_TIME <= Backoff(polltime, rounding) <= STATE_POLLING_MAX_TIME
    ensures Backoff(polltime, rounding) >= polltime + |rounding|
         || Backoff(polltime, rounding) == STATE_POLLING_MAX_TIME
    decreases |rounding|
  {
    if |rounding| > 0 {
      BackoffBounds(Grow(polltime, rounding[0]), rounding[1..]);
    }
  }

  /** An idle iteration: local socket alive with nothing to send, tunnel
      connection alive with nothing to deliver. */
  predicate IsIdle(o: Observation)
  {
    o.probe == Probed(true, false) && o.readResp.success && o.readResp.connected && !o.readResp.dataAvailable
  }

  /** The rounding outcome of each observation, in order. */
  function Roundings(obs: seq<Observation>): (rounding: seq<bool>)
  {
    seq(|obs|, i requires 0 <= i < |obs| => obs[i].roundUp)
  }

  /** A run of idle iterations keeps the loop going and follows the ×1.1
      backoff exactly. */
  lemma {:induction false} IdleRunBacksOff(g: GatewayState, cid: int, enc: Encoder, obs: seq<Observation>)
    requires !g.stopped
    requires forall i :: 0 <= i < |obs| ==> IsIdle(obs[i])
    ensures !Run(g, cid, enc, obs).stopped
    ensures Run(g, cid, enc, obs).polltime == Backoff(g.polltime, Roundings(obs))
    decreases |obs|
  {
    if |obs| > 0 {
      var s := Step(g, cid, enc, obs[0]);
      assert IsIdle(obs[0]);
      assert s.state.polltime == Grow(g.polltime, obs[0].roundUp);
      assert forall i :: 0 <= i < |obs[1..]| ==> obs[1..][i] == obs[i + 1];
      assert Roundings(obs)[0] == obs[0].roundUp;
      assert Roundings(obs)[1..] == Roundings(obs[1..]);
      IdleRunBacksOff(s.state, cid, enc, obs[1..]);
    }
  }

  /** An iteration that moves data in either direction resets the interval
      to its minimum. */
  lemma TrafficResetsPolltime(g: GatewayState, cid: int, enc: Encoder, o: Observation)
    requires !g.stopped && LocalConnected(o.probe)
    requires (LocalDataAvailable(o.probe) && |Chunk(o.localRead)| > 0)
          || (o.readResp.success && o.readResp.connected && o.readResp.dataAvailable)
    ensures Step(g, cid, enc, o).state.polltime == STATE_POLLING_MIN_TIME
  {
  }

  /** The life of one gateway: whether the loop ran, the state it ended in,
      and whether the tunnel's Disconnect was issued. */
  datatype Lifecycle = Lifecycle(loopRan: bool, final: GatewayState, disconnectIssued: bool)

  /** A run ends exactly when it started stopped or one of its observations
      carries a stop cause: every cause ends the loop, and nothing else does. */
  lemma {:induction false} RunStopsExactlyOnCause(g: GatewayState, cid: int, enc: Encoder, obs: seq<Observation>)
    ensures Run(g, cid, enc, obs).stopped <==> g.stopped || exists i :: 0 <= i < |obs| && StopCause(obs[i])
    decreases |obs|
  {
    if |obs| > 0 {
      var s := Step(g, cid, enc, obs[0]).state;
      assert s.stopped <==> g.stopped || StopCause(obs[0]);
      RunStopsExactlyOnCause(s, cid, enc, obs[1..]);
      if i :| 0 <= i < |obs| && StopCause(obs[i]) {
        if i > 0 {
          assert obs[1..][i - 1] == obs[i];
        }
      }
      if j :| 0 <= j < |obs[1..]| && StopCause(obs[1..][j]) {
        assert obs[j + 1] == obs[1..][j];
      }
    }
  }

  /** A refused Connect ends the gateway at once: no loop, no Disconnect.
      Otherwise the loop runs over the observations, keeps its interval in
      [10, 5000] ms, and ends, releasing the client and issuing Disconnect,
      exactly when some iteration met a stop cause. Every tunnel call is
      taken to return a response: a call that throws is not modelled. */
  function Lifetime(connect: ConnectResponse, enc: Encoder, obs: seq<Observation>): (r: Lifecycle)
    ensures !connect.success ==> !r.loopRan && !r.disconnectIssued && r.final == Initial
    ensures connect.success ==> r.loopRan
    ensures r.disconnectIssued <==> connect.success && exists i :: 0 <= i < |obs| && StopCause(obs[i])
    ensures r.final.stopped <==> r.disconnectIssued
    ensures STATE_POLLING_MIN_TIME <= r.final.polltime <= STATE_POLLING_MAX_TIME
  {
    if !connect.success then Lifecycle(false, Initial, false)
    else
      var final := Run(Initial, connect.cid, enc, obs);
      RunStopsExactlyOnCause(Initial, connect.cid, enc, obs);
      RunPolltimeBounded(Initial, connect.cid, enc, obs);
      Lifecycle(true, final, final.stopped && Gateway.Disconnect(true).disconnectIssued)
  }

  /** A dead local socket, a failed tunnel Read or a Read reporting the
      remote end gone, at any iteration, ends the gateway's life: the loop
      stops and Disconnect is issued. */
  lemma FaultEndsLifetime(connect: ConnectResponse, enc: Encoder, obs: seq<Observation>, i: int)
    requires connect.success && 0 <= i < |obs|
    requires !LocalConnected(obs[i].probe) || !obs[i].readResp.success || !obs[i].readResp.connected
    ensures Lifetime(connect, enc, obs).final.stopped
    ensures Lifetime(connect, enc, obs).disconnectIssued
  {
    assert StopCause(obs[i]);
  }

  /** A run of idle iterations after a successful Connect never ends the
      gateway: no Disconnect is issued. */
  lemma IdleLifetimeContinues(connect: ConnectResponse, enc: Encoder, obs: seq<Observation>)
    requires connect.success
    requires forall i :: 0 <= i < |obs| ==> IsIdle(obs[i])
    ensures !Lifetime(connect, enc, obs).disconnectIssued
  {
    forall i | 0 <= i < |obs|
      ensures !StopCause(obs[i])
    {
      assert IsIdle(obs[i]);
    }
  }

  /** The number of tunnel Disconnects issued by `calls` calls of the
      gateway's Disconnect. */
  function DisconnectsIssued(clientHeld: bool, calls: nat): nat
  {
    if calls == 0 then 0
    else
      var c := Gateway.Disconnect(clientHeld);
      (if c.disconnectIssued then 1 else 0) + DisconnectsIssued(c.clientHeld, calls - 1)
  }

  /** However often it is called, Disconnect releases the client and tells
      the tunnel at most once. */
  lemma {:induction false} DisconnectAtMostOnce(clientHeld: bool, calls: nat)
    ensures DisconnectsIssued(clientHeld, calls) == (if clientHeld && calls > 0 then 1 else 0)
  {
    if calls > 0 {
      DisconnectAtMostOnce(false, calls - 1);
    }
  }

  /** The transform undoes itself, as an XOR with a cid-derived key does. */
  ghost predicate Involutive(enc: Encoder)
  {
    forall b, cid :: enc(enc(b, cid), cid) == b
  }

  /** Remote to local: bytes the service reads from a readable outbound
      socket reach the gateway's local socket, transformed once by each side,
      which gives back the bytes read when the transform undoes itself; the
      interval resets to its minimum. */
  lemma RemoteBytesReachLocalSocket(
    reg: Registry, sid: int, cid: int, now: int, bytes: seq<byte>, enc: Encoder, g: GatewayState, o: Observation)
    requires sid in reg && cid in reg[sid].connections && |bytes| > 0
    requires !g.stopped && LocalConnected(o.probe)
    requires o.readResp == Read(reg, sid, cid, now, Probe(true, true), Received(bytes), enc).resp
    ensures var r := Step(g, cid, enc, o);
      && r.delivered == Some(enc(enc(Take(bytes, BUFFER_SIZE), cid), cid))
      && r.state.polltime == STATE_POLLING_MIN_TIME
      && (Involutive(enc) ==> r.delivered == Some(Take(bytes, BUFFER_SIZE)))
  {
    var rd := Read(reg, sid, cid, now, Probe(true, true), Received(bytes), enc);
    assert rd.resp.success && rd.resp.connected && rd.resp.dataAvailable;
    var count := |rd.resp.data.value|;
    assert count == |Take(bytes, BUFFER_SIZE)|;
    assert rd.resp.data == Some(enc(Take(bytes, BUFFER_SIZE), cid));
  }

  /** Local to remote: the chunk the gateway reads locally reaches the
      outbound socket transformed once by each side, which gives back the
      bytes read when the transform undoes itself, and the connection's
      write counter grows by its length. */
  lemma LocalBytesReachRemoteSocket(
    reg: Registry, sid: int, cid: int, now: int, probe: Probe, enc: Encoder, g: GatewayState, o: Observation)
    requires sid in reg && cid in reg[sid].connections
    requires !g.stopped && o.probe == Probed(true, true)
    requires o.localRead.LocalReceived? && |o.localRead.bytes| > 0
    ensures var s := Step(g, cid, enc, o);
      && s.sent.Some?
      && var w := Write(reg, sid, cid, s.sent.value, now, probe, true, enc);
      && w.resp.success
      && w.sent == enc(enc(Chunk(o.localRead), cid), cid)
      && w.reg[sid].connections[cid].writeCount
         == reg[sid].connections[cid].writeCount + |Chunk(o.localRead)|
      && (Involutive(enc) ==> w.sent == Take(o.localRead.bytes, BUFFER_SIZE))
  {
    var s := Step(g, cid, enc, o);
    var w := Write(reg, sid, cid, s.sent.value, now, probe, true, enc);
    assert Transferred(reg, w.reg, sid, cid, now, 0, |s.sent.value|);
  }
}

=== FILE: hex.dfy ===
/** Rendering of an id the way `int.ToString("x")` does: lower-case
    hexadecimal without leading zeros, two's complement for negative values. */
module Hex {

  const DIGITS: string := "0123456789abcdef"

  predicate IsHexDigit(c: char)
  {
    c in DIGITS
  }

  function DigitValue(c: char): (v: nat)
    requires IsHexDigit(c)
    ensures v < 16 && DIGITS[v] == c
  {
    if '0' <= c <= '9' then (c as int) - ('0' as int) else (c as int) - ('a' as int) + 10
  }

  /** Hexadecimal text of a natural number. */
  function ToHex(n: nat): (s: string)
    ensures |s| > 0
    ensures forall i :: 0 <= i < |s| ==> IsHexDigit(s[i])
    ensures n > 0 ==> s[0] != '0'
  {
    if n < 16 then [DIGITS[n]] else ToHex(n / 16) + [DIGITS[n % 16]]
  }

  /** Value of a string of hexadecimal digits. */
  function ParseHex(s: string): nat
    requires forall i :: 0 <= i < |s| ==> IsHexDigit(s[i])
  {
    if |s| == 0 then 0 else 16 * ParseHex(s[..|s| - 1]) + DigitValue(s[|s| - 1])
  }

  /** `ToString("x")` of a 32-bit int: negative values print their
      two's-complement bit pattern. */
  function Int32Hex(n: int): (s: string)
    ensures |s| > 0
    ensures forall i :: 0 <= i < |s| ==> IsHexDigit(s[i])
  {
    if 0 <= n then ToHex(n) else ToHex(n % 0x1_0000_0000)
  }

  /** Reading the text back gives the number: the rendering loses nothing. */
  lemma {:induction false} ParseToHex(n: nat)
    ensures ParseHex(ToHex(n)) == n
  {
    var s := ToHex(n);
    if n >= 16 {
      ParseToHex(n / 16);
      assert s[..|s| - 1] == ToHex(n / 16);
      assert s[|s| - 1] == DIGITS[n % 16];
    }
  }

  /** Distinct non-negative ids are rendered as distinct strings. */
  lemma ToHexInjective(a: nat, b: nat)
    requires a != b
    ensures ToHex(a) != ToHex(b)
  {
    ParseToHex(a);
    ParseToHex(b);
  }

  /** Over the 32-bit range the text reads back as the two's-complement bit
      pattern: the id itself when non-negative, the id plus 2^32 otherwise. */
  lemma Int32HexRoundTrip(n: int)
    requires -0x8000_0000 <= n <= 0x7fff_ffff
    ensures ParseHex(Int32Hex(n)) == if 0 <= n then n else n + 0x1_0000_0000
  {
    if 0 <= n {
      ParseToHex(n);
    } else {
      assert n % 0x1_0000_0000 == n + 0x1_0000_0000;
      ParseToHex(n + 0x1_0000_0000);
    }
  }

  /** Distinct 32-bit ids, negative ones included, are rendered as distinct
      strings. */
  lemma Int32HexInjective(a: int, b: int)
    requires -0x8000_0000 <= a <= 0x7fff_ffff && -0x8000_0000 <= b <= 0x7fff_ffff
    requires a != b
    ensures Int32Hex(a) != Int32Hex(b)
  {
    Int32HexRoundTrip(a);
    Int32HexRoundTrip(b);
  }
}

=== FILE: ids.dfy ===
/** Identifier generation for sessions and connections: draw a start value,
    then probe upward by one until a key not yet in use is found. */
module Ids {
  import opened Base

  /** The keys at or above `lo`: what the probe can still collide with. */
  ghost function Above(keys: set<int>, lo: int): set<int>
  {
    set k | k in keys && lo <= k
  }

  lemma AboveIsSubset(keys: set<int>, lo: int)
    ensures |Above(keys, lo)| <= |keys|
  {
    var a := Above(keys, lo);
    assert keys == a + (keys - a);
  }

  /** The id `GetNewId` returns when its random draw is `start`: the least
      unused key at or above `start`. On a finite key set the probe stops after
      at most `|keys|` increments. */
  function NewId(keys: set<int>, start: int): (id: int)
    ensures id !in keys
    ensures start <= id
    ensures forall k :: start <= k < id ==> k in keys
    ensures id - start <= |Above(keys, start)|
    decreases |Above(keys, start)|
  {
    if start in keys then
      assert Above(keys, start + 1) == Above(keys, start) - {start};
      NewId(keys, start + 1)
    else
      start
  }

  /** The probe never runs further than the number of keys in use, so with
      `start + |keys| <= INT_MAX` the C# `key += 1` cannot wrap around. */
  lemma NewIdBound(keys: set<int>, start: int)
    ensures NewId(keys, start) <= start + |keys|
    ensures start + |keys| <= INT_MAX ==> NewId(keys, start) <= INT_MAX
  {
    AboveIsSubset(keys, start);
  }
}

=== FILE: protocol.dfy ===
/** The responses of the tunnel calls the client side consumes, shared by
    the service that builds them and the gateway that reads them. A field a
    handler never assigns keeps its .NET default. */
module Protocol {
  import opened Base

  datatype LoginResponse = LoginResponse(success: bool, message: Note, sid: int)
  datatype MinimalResponse = MinimalResponse(success: bool, message: Note)
  datatype ConnectResponse = ConnectResponse(success: bool, message: Note, cid: int, connected: bool, dataAvailable: bool)
  datatype ContextResponse = ContextResponse(success: bool, message: Note, connected: bool, dataAvailable: bool)
  datatype ReadResponse = ReadResponse(success: bool, message: Note, connected: bool, dataAvailable: bool, data: Option<seq<byte>>)
}

=== FILE: scenarios.dfy ===
/** Concrete scenarios over the three users of the test configuration:
    `usertest` (enabled, admin), `userdisabled` (disabled) and `userlambda`
    (enabled, not admin). None of them sets a timeout override: the test
    configuration answers every unset key with an empty string, read here as
    unset. */
module Scenarios {
  import opened Base
  import opened SessionStore
  import opened Protocol
  import opened Tunnel

  const TestConfig: Config := map[
    "usertest" := UserEntry(true, "userpassword", true, None, None),
    "userdisabled" := UserEntry(false, "userdisabledpassword", false, None, None),
    "userlambda" := UserEntry(true, "userlambdapassword", false, None, None)
  ]

  /** The admin user logs in with its password into a fresh session that
      carries the admin right and the default timeouts of 12 and 1 hours. */
  lemma AdminLogin(reg: Registry, now: int, seed: nat)
    ensures var r := Login(reg, TestConfig, "usertest", "userpassword", now, seed);
      && r.resp.success && r.resp.sid !in reg
      && r.reg[r.resp.sid].admin
      && r.reg[r.resp.sid].sessionTimeout == DEFAULT_SESSION_TIMEOUT_DELAY
      && r.reg[r.resp.sid].connectionTimeout == DEFAULT_CONNECTION_TIMEOUT_DELAY
  {
    assert UserOf(TestConfig, "usertest") == TestConfig["usertest"];
  }

  /** The disabled user is refused with sid -1 even with its own password, and
      nothing is registered. */
  lemma DisabledUserRefused(reg: Registry, password: string, now: int, seed: nat)
    ensures Login(reg, TestConfig, "userdisabled", password, now, seed)
         == Reply(reg, LoginResponse(false, AccessDenied, -1), {}, [])
  {
    assert UserOf(TestConfig, "userdisabled") == TestConfig["userdisabled"];
  }

  /** A user absent from the configuration is refused like a disabled one. */
  lemma UnknownUserRefused(reg: Registry, password: string, now: int, seed: nat)
    ensures Login(reg, TestConfig, "nobody", password, now, seed)
         == Reply(reg, LoginResponse(false, AccessDenied, -1), {}, [])
  {
    assert "nobody" !in TestConfig;
  }

  /** The non-admin user can log in, but its session may neither list the
      sessions nor kill one: not its own, and not any other session in the
      registry, whoever owns it. */
  lemma LambdaIsNotAdmin(reg: Registry, now: int, seed: nat, order: seq<int>, other: int)
    ensures var r := Login(reg, TestConfig, "userlambda", "userlambdapassword", now, seed);
      && r.resp.success
      && var sid := r.resp.sid;
      && Monitor(r.reg, sid, now, order).resp == MonitorResponse(false, AdminRequired, None)
      && KillSession(r.reg, sid, sid, now).resp == MinimalResponse(false, AdminRequired)
      && KillSession(r.reg, sid, sid, now).reg.Keys == r.reg.Keys
      && (other in r.reg ==>
            && KillSession(r.reg, sid, other, now).resp == MinimalResponse(false, AdminRequired)
            && KillSession(r.reg, sid, other, now).reg.Keys == r.reg.Keys
            && KillSession(r.reg, sid, other, now).closed == {})
  {
    assert UserOf(TestConfig, "userlambda") == TestConfig["userlambda"];
    var r := Login(reg, TestConfig, "userlambda", "userlambdapassword", now, seed);
    var k := KillSession(r.reg, r.resp.sid, r.resp.sid, now);
    assert OnlyAccessChanged(r.reg, k.reg, now);
    var o := KillSession(r.reg, r.resp.sid, other, now);
    assert OnlyAccessChanged(r.reg, o.reg, now);
  }

  /** The admin kills the non-admin user's session: the session and its
      connections are gone, the admin's own session survives, and the next
      request of the killed session is refused as unknown. */
  lemma AdminKillsLambda(reg: Registry, now: int, seedA: nat, seedL: nat, cid: int, probe: Probe)
    ensures
      var a := Login(reg, TestConfig, "usertest", "userpassword", now, seedA);
      var l := Login(a.reg, TestConfig, "userlambda", "userlambdapassword", now, seedL);
      var k := KillSession(l.reg, a.resp.sid, l.resp.sid, now);
      && k.resp.success
      && l.resp.sid !in k.reg && a.resp.sid in k.reg
      && Disconnect(k.reg, l.resp.sid, cid, now, probe).resp == ContextResponse(false, SidNotFound, false, false)
  {
    assert UserOf(TestConfig, "usertest") == TestConfig["usertest"];
    assert UserOf(TestConfig, "userlambda") == TestConfig["userlambda"];
    var a := Login(reg, TestConfig, "usertest", "userpassword", now, seedA);
    var l := Login(a.reg, TestConfig, "userlambda", "userlambdapassword", now, seedL);
    assert a.resp.sid in l.reg && l.reg[a.resp.sid] == a.reg[a.resp.sid];
    assert l.reg[a.resp.sid].admin;
    assert a.resp.sid != l.resp.sid;
  }
}

=== FILE: session_store.dfy ===
/** The server's registry: a map from session id to Session, each Session
    owning a map from connection id to Connection. Lookups that succeed
    refresh the last-access time of what they found. */
module SessionStore {
  import opened Base

  /** One tunnelled outbound connection. The socket itself is not modelled;
      `host` is the reverse-resolved name of the remote end, or "?". */
  datatype Connection = Connection(
    address: string,
    port: int,
    host: string,
    lastAccess: int,
    readCount: int,
    writeCount: int)

  /** One logged-in user. Timeouts are in hours, times are abstract ticks. */
  datatype Session = Session(
    username: string,
    admin: bool,
    logon: int,
    lastAccess: int,
    sessionTimeout: int,
    connectionTimeout: int,
    connections: map<int, Connection>)

  type Registry = map<int, Session>

  /** The identity of one connection across the whole registry. */
  datatype ConnKey = ConnKey(sid: int, cid: int)

  /** Outcome of the non-blocking liveness probe on an outbound socket. */
  datatype Probe = Probe(connected: bool, dataAvailable: bool)

  ghost predicate IsLive(reg: Registry, k: ConnKey)
  {
    k.sid in reg && k.cid in reg[k.sid].connections
  }

  /** The connections session `sid` owns, as registry-wide keys. */
  function Owned(sid: int, s: Session): (keys: set<ConnKey>)
    ensures forall k :: k in keys <==> k.sid == sid && k.cid in s.connections
  {
    set cid | cid in s.connections :: ConnKey(sid, cid)
  }

  /** `b` is `a` with at most its last-access time changed. */
  predicate SameExceptAccess(a: Session, b: Session)
  {
    b == a.(lastAccess := b.lastAccess)
  }

  /** `b` is `a` with at most the last-access times of the session and of its
      connections refreshed to `now`: nothing added, nothing removed, no
      counter moved. */
  predicate OnlyAccessChangedIn(a: Session, b: Session, now: int)
  {
    && b.(lastAccess := a.lastAccess, connections := a.connections) == a
    && (b.lastAccess == a.lastAccess || b.lastAccess == now)
    && b.connections.Keys == a.connections.Keys
    && forall cid :: cid in a.connections ==>
         && b.connections[cid] == a.connections[cid].(lastAccess := b.connections[cid].lastAccess)
         && (b.connections[cid].lastAccess == a.connections[cid].lastAccess || b.connections[cid].lastAccess == now)
  }

  /** Registry-wide form of `OnlyAccessChangedIn`. */
  predicate OnlyAccessChanged(reg: Registry, reg': Registry, now: int)
  {
    && reg'.Keys == reg.Keys
    && forall sid :: sid in reg ==> OnlyAccessChangedIn(reg[sid], reg'[sid], now)
  }

  /** Every session except those in `except` is present and untouched in `reg'`. */
  predicate OthersUnchanged(reg: Registry, reg': Registry, except: set<int>)
  {
    forall sid :: sid in reg && sid !in except ==> sid in reg' && reg'[sid] == reg[sid]
  }

  /** `reg'` is `reg` after refreshing session `sid` at time `now`. */
  predicate Refreshed(reg: Registry, reg': Registry, sid: int, now: int)
  {
    && sid in reg && sid in reg'
    && reg'.Keys == reg.Keys
    && reg'[sid].lastAccess == now
    && SameExceptAccess(reg[sid], reg'[sid])
    && OthersUnchanged(reg, reg', {sid})
  }

  /** `reg'` is `reg` after a transfer on connection `cid` of session `sid` at
      time `now`: session and connection are refreshed, the connection's read
      and write counters grew by `read` and `written`, nothing else changed. */
  predicate Transferred(reg: Registry, reg': Registry, sid: int, cid: int, now: int, read: int, written: int)
  {
    && sid in reg && sid in reg' && cid in reg[sid].connections
    && reg'.Keys == reg.Keys
    && OthersUnchanged(reg, reg', {sid})
    && reg'[sid] == reg[sid].(lastAccess := now, connections := reg'[sid].connections)
    && reg'[sid].connections.Keys == reg[sid].connections.Keys
    && (forall c :: c in reg[sid].connections && c != cid ==>
          reg'[sid].connections[c] == reg[sid].connections[c])
    && var c0 := reg[sid].connections[cid];
       reg'[sid].connections[cid]
         == c0.(lastAccess := now, readCount := c0.readCount + read, writeCount := c0.writeCount + written)
  }

  /** The registry invariant: ids are non-negative (they come from a
      non-negative draw probed upward), no time lies in the future of `now`,
      a session was last accessed no earlier than its logon, and byte counters
      are non-negative. */
  predicate ValidConnection(cid: int, c: Connection, now: int)
  {
    0 <= cid && c.lastAccess <= now && 0 <= c.readCount && 0 <= c.writeCount
  }

  predicate ValidSession(sid: int, s: Session, now: int)
  {
    && 0 <= sid
    && s.logon <= s.lastAccess <= now
    && forall cid :: cid in s.connections ==> ValidConnection(cid, s.connections[cid], now)
  }

  predicate Valid(reg: Registry, now: int)
  {
    forall sid :: sid in reg ==> ValidSession(sid, reg[sid], now)
  }

  /** A refresh of one session changes nothing but access times. */
  lemma RefreshedIsAccessOnly(reg: Registry, reg': Registry, sid: int, now: int)
    requires Refreshed(reg, reg', sid, now)
    ensures OnlyAccessChanged(reg, reg', now)
  {
    forall s | s in reg
      ensures OnlyAccessChangedIn(reg[s], reg'[s], now)
    {
      if s == sid {
        assert reg'[s] == reg[s].(lastAccess := now);
      }
    }
  }

  /** A transfer of no bytes changes nothing but access times. */
  lemma TransferredIsAccessOnly(reg: Registry, reg': Registry, sid: int, cid: int, now: int)
    requires Transferred(reg, reg', sid, cid, now, 0, 0)
    ensures OnlyAccessChanged(reg, reg', now)
  {
    forall s | s in reg
      ensures OnlyAccessChangedIn(reg[s], reg'[s], now)
    {
    }
  }

  /** Access-only changes compose: both steps refresh to the same `now`. */
  lemma AccessOnlyTrans(a: Registry, b: Registry, c: Registry, now: int)
    requires OnlyAccessChanged(a, b, now) && OnlyAccessChanged(b, c, now)
    ensures OnlyAccessChanged(a, c, now)
  {
    forall s | s in a
      ensures OnlyAccessChangedIn(a[s], c[s], now)
    {
      assert OnlyAccessChangedIn(a[s], b[s], now);
      assert OnlyAccessChangedIn(b[s], c[s], now);
    }
  }

  /** Result of `CheckSession`: the registry afterwards, the session found
      (None for a null return) and the success flag and message it leaves in
      the response. */
  datatype SessionCheck = SessionCheck(reg: Registry, session: Option<Session>, success: bool, message: Note)

  /** Authentication of a request by its session id. An unknown id fails and
      changes nothing; a known one succeeds with an empty message and refreshes
      that session alone. */
  function CheckSession(reg: Registry, sid: int, now: int): (r: SessionCheck)
    ensures sid !in reg ==> r == SessionCheck(reg, None, false, SidNotFound)
    ensures sid in reg ==>
      && r.success && r.message == NoMessage
      && Refreshed(reg, r.reg, sid, now)
      && r.session == Some(r.reg[sid])
  {
    if sid !in reg then
      SessionCheck(reg, None, false, SidNotFound)
    else
      var s := reg[sid].(lastAccess := now);
      SessionCheck(reg[sid := s], Some(s), true, NoMessage)
  }

  /** Result of looking up a connection inside a session: the registry
      afterwards, the connection found, and the success flag, message and
      connection state it leaves in the response. */
  datatype ConnectionCheck = ConnectionCheck(
    reg: Registry,
    connection: Option<Connection>,
    success: bool,
    message: Note,
    connected: bool,
    dataAvailable: bool)

  /** Lookup of connection `cid` in session `sid`: an unknown cid fails and
      changes nothing; a known one succeeds, reports the probe's state and
      refreshes that connection alone. */
  function CheckConnection(reg: Registry, sid: int, cid: int, now: int, probe: Probe): (r: ConnectionCheck)
    requires sid in reg
    ensures cid !in reg[sid].connections ==>
      r == ConnectionCheck(reg, None, false, CidNotFound, false, false)
    ensures cid in reg[sid].connections ==>
      && r.success && r.message == NoMessage
      && r.connected == probe.connected && r.dataAvailable == probe.dataAvailable
      && r.reg.Keys == reg.Keys
      && OthersUnchanged(reg, r.reg, {sid})
      && r.reg[sid] == reg[sid].(connections := r.reg[sid].connections)
      && r.reg[sid].connections.Keys == reg[sid].connections.Keys
      && r.reg[sid].connections[cid] == reg[sid].connections[cid].(lastAccess := now)
      && (forall c :: c in reg[sid].connections && c != cid ==>
            r.reg[sid].connections[c] == reg[sid].connections[c])
      && r.connection == Some(r.reg[sid].connections[cid])
  {
    var s := reg[sid];
    if cid !in s.connections then
      ConnectionCheck(reg, None, false, CidNotFound, false, false)
    else
      var c := s.connections[cid].(lastAccess := now);
      var reg' := reg[sid := s.(connections := s.connections[cid := c])];
      ConnectionCheck(reg', Some(c), true, NoMessage, probe.connected, probe.dataAvailable)
  }

  /** Replaces connection `cid` of session `sid`. */
  function PutConnection(reg: Registry, sid: int, cid: int, c: Connection): (reg': Registry)
    requires sid in reg
    ensures reg'.Keys == reg.Keys
    ensures OthersUnchanged(reg, reg', {sid})
    ensures reg'[sid] == reg[sid].(connections := reg[sid].connections[cid := c])
  {
    reg[sid := reg[sid].(connections := reg[sid].connections[cid := c])]
  }

  /** Removal of a whole session: every connection it owns is closed first,
      then the session leaves the registry. */
  datatype Removal = Removal(reg: Registry, closed: set<ConnKey>)

  function RemoveSession(reg: Registry, sid: int): (r: Removal)
    requires sid in reg
    ensures r.reg.Keys == reg.Keys - {sid}
    ensures OthersUnchanged(reg, r.reg, {sid})
    ensures r.closed == Owned(sid, reg[sid])
    ensures forall k :: IsLive(r.reg, k) <==> IsLive(reg, k) && k !in r.closed
  {
    Removal(reg - {sid}, Owned(sid, reg[sid]))
  }

  /** Removal of one connection from its session. */
  function RemoveConnection(reg: Registry, sid: int, cid: int): (r: Removal)
    requires sid in reg && cid in reg[sid].connections
    ensures r.reg.Keys == reg.Keys
    ensures OthersUnchanged(reg, r.reg, {sid})
    ensures r.reg[sid] == reg[sid].(connections := reg[sid].connections - {cid})
    ensures r.closed == {ConnKey(sid, cid)}
    ensures forall k :: IsLive(r.reg, k) <==> IsLive(reg, k) && k !in r.closed
  {
    var s := reg[sid];
    Removal(reg[sid := s.(connections := s.connections - {cid})], {ConnKey(sid, cid)})
  }
}

=== FILE: tunnel.dfy ===
/** The server-side tunnel service. Every request handler is a pure function
    from the registry, the request, the current time and what the environment
    did (dial result, socket probe, bytes read, write fault, random draw) to
    the new registry and the response. In this model a handler never fails
    by exception: every fault it models becomes `success == false` in its
    response. */
module Tunnel {
  import opened Base
  import opened SessionStore
  import opened Protocol
  import Ids
  import Hex

  const DEFAULT_SESSION_TIMEOUT_DELAY: int := 12    // hours
  const DEFAULT_CONNECTION_TIMEOUT_DELAY: int := 1  // hours

  /** The value a response's `Cid` keeps when no handler code assigns it. */
  const UNSET_CID: int := 0

  /** One row of the monitor listing; the id is rendered in hexadecimal. */
  datatype SessionInfo = SessionInfo(
    sid: string,
    username: string,
    admin: bool,
    logon: int,
    lastAccess: int,
    connections: map<int, Connection>)

  datatype MonitorResponse = MonitorResponse(success: bool, message: Note, sessions: Option<seq<SessionInfo>>)

  /** What a handler leaves behind: the registry, the response, the
      connections whose sockets it closed, and the bytes it put on an
      outbound socket. */
  datatype Reply<R> = Reply(reg: Registry, resp: R, closed: set<ConnKey>, sent: seq<byte>)

  /** The configuration entries of one user. A timeout override that is absent
      reads as `int.MinValue`, like any override equal to it. */
  datatype UserEntry = UserEntry(enabled: bool, password: string, admin: bool, stimeout: Option<int>, ctimeout: Option<int>)

  type Config = map<string, UserEntry>

  /** Result of dialling the requested endpoint; `host` is the reverse lookup. */
  datatype DialOutcome = Refused | Dialed(host: Option<string>, dataAvailable: bool)

  /** Result of one `Stream.Read` on an outbound socket: the bytes the socket
      had buffered, or a socket fault. */
  datatype StreamRead = Received(bytes: seq<byte>) | ReadFault

  /** A user missing from the configuration reads as disabled, with an empty
      password, no admin right and no overrides. */
  function UserOf(config: Config, username: string): UserEntry
  {
    if username in config then config[username] else UserEntry(false, "", false, None, None)
  }

  function TimeoutOrDefault(setting: Option<int>, default: int): (t: int)
    ensures setting.Some? && setting.value != INT_MIN ==> t == setting.value
    ensures setting.None? || setting.value == INT_MIN ==> t == default
  {
    var v := setting.GetOr(INT_MIN);
    if v == INT_MIN then default else v
  }

  /** The session a successful login creates. */
  function NewSession(u: UserEntry, username: string, now: int): Session
  {
    Session(username, u.admin, now, now,
            TimeoutOrDefault(u.stimeout, DEFAULT_SESSION_TIMEOUT_DELAY),
            TimeoutOrDefault(u.ctimeout, DEFAULT_CONNECTION_TIMEOUT_DELAY),
            map[])
  }

  /** Login: a disabled (or unknown) user is refused whatever the password,
      an enabled user with another password is refused, and neither refusal
      touches the registry. Otherwise a session under a fresh id is added and
      nothing else changes. `seed` is the random draw the id search starts from. */
  function Login(reg: Registry, config: Config, username: string, password: string, now: int, seed: nat)
    : (r: Reply<LoginResponse>)
    ensures !UserOf(config, username).enabled ==>
      r == Reply(reg, LoginResponse(false, AccessDenied, -1), {}, [])
    ensures UserOf(config, username).enabled && password != UserOf(config, username).password ==>
      r == Reply(reg, LoginResponse(false, BadPassword, -1), {}, [])
    ensures r.resp.success <==> UserOf(config, username).enabled && password == UserOf(config, username).password
    ensures r.resp.success ==>
      && r.resp.message == AccessGranted
      && 0 <= r.resp.sid && r.resp.sid !in reg
      && r.reg.Keys == reg.Keys + {r.resp.sid}
      && OthersUnchanged(reg, r.reg, {})
      && r.reg[r.resp.sid].username == username
      && r.reg[r.resp.sid].admin == UserOf(config, username).admin
      && r.reg[r.resp.sid].logon == now && r.reg[r.resp.sid].lastAccess == now
      && r.reg[r.resp.sid].connections == map[]
      && r.reg[r.resp.sid].sessionTimeout
         == TimeoutOrDefault(UserOf(config, username).stimeout, DEFAULT_SESSION_TIMEOUT_DELAY)
      && r.reg[r.resp.sid].connectionTimeout
         == TimeoutOrDefault(UserOf(config, username).ctimeout, DEFAULT_CONNECTION_TIMEOUT_DELAY)
      && r.closed == {} && r.sent == []
  {
    var u := UserOf(config, username);
    if !u.enabled then
      Reply(reg, LoginResponse(false, AccessDenied, -1), {}, [])
    else if u.password != password then
      Reply(reg, LoginResponse(false, BadPassword, -1), {}, [])
    else
      var sid := Ids.NewId(reg.Keys, seed);
      Reply(reg[sid := NewSession(u, username, now)], LoginResponse(true, AccessGranted, sid), {}, [])
  }

  /** Logout: an unknown id fails and changes nothing; otherwise every
      connection of the session is closed and the session removed, and all
      other sessions are left intact. */
  function Logout(reg: Registry, sid: int, now: int): (r: Reply<MinimalResponse>)
    ensures sid !in reg ==> r == Reply(reg, MinimalResponse(false, SidNotFound), {}, [])
    ensures sid in reg ==>
      && r.resp == MinimalResponse(true, SessionLogout)
      && r.reg.Keys == reg.Keys - {sid}
      && OthersUnchanged(reg, r.reg, {sid})
      && r.closed == Owned(sid, reg[sid])
    ensures forall k :: IsLive(r.reg, k) <==> IsLive(reg, k) && k !in r.closed
  {
    var chk := CheckSession(reg, sid, now);
    if chk.session.None? then
      Reply(chk.reg, MinimalResponse(false, chk.message), {}, [])
    else
      var rm := RemoveSession(chk.reg, sid);
      Reply(rm.reg, MinimalResponse(true, SessionLogout), rm.closed, [])
  }

  /** Connect: an unknown id fails and changes nothing. A refused dial reports
      cid -1 and leaves the (refreshed) session registered without a new
      connection. A successful dial adds a connection under an id fresh within
      the session, with zeroed counters, and reports it connected. */
  function Connect(reg: Registry, sid: int, address: string, port: int, now: int, dial: DialOutcome, cidSeed: nat)
    : (r: Reply<ConnectResponse>)
    ensures sid !in reg ==> r == Reply(reg, ConnectResponse(false, SidNotFound, UNSET_CID, false, false), {}, [])
    ensures sid in reg && dial.Refused? ==>
      && r.resp == ConnectResponse(false, ConnectionRefused, -1, false, false)
      && Refreshed(reg, r.reg, sid, now)
    ensures sid in reg && dial.Dialed? ==>
      && r.resp.success && r.resp.message == Connected
      && r.resp.connected && r.resp.dataAvailable == dial.dataAvailable
      && 0 <= r.resp.cid && r.resp.cid !in reg[sid].connections
      && r.reg.Keys == reg.Keys
      && OthersUnchanged(reg, r.reg, {sid})
      && r.reg[sid] == reg[sid].(lastAccess := now, connections := r.reg[sid].connections)
      && r.reg[sid].connections
         == reg[sid].connections[r.resp.cid := Connection(address, port, dial.host.GetOr("?"), now, 0, 0)]
    ensures forall k :: IsLive(r.reg, k) <==> IsLive(reg, k) || (r.resp.success && k == ConnKey(sid, r.resp.cid))
    ensures r.closed == {} && r.sent == []
  {
    var chk := CheckSession(reg, sid, now);
    if chk.session.None? then
      Reply(chk.reg, ConnectResponse(false, chk.message, UNSET_CID, false, false), {}, [])
    else
      match dial
      case Refused =>
        Reply(chk.reg, ConnectResponse(false, ConnectionRefused, -1, false, false), {}, [])
      case Dialed(host, available) =>
        var cid := Ids.NewId(chk.reg[sid].connections.Keys, cidSeed);
        var c := Connection(address, port, host.GetOr("?"), now, 0, 0);
        Reply(PutConnection(chk.reg, sid, cid, c), ConnectResponse(true, Connected, cid, true, available), {}, [])
  }

  /** Disconnect: an unknown session or connection fails and removes nothing.
      Otherwise exactly that connection is closed and removed, and the
      response reports it neither connected nor readable. */
  function Disconnect(reg: Registry, sid: int, cid: int, now: int, probe: Probe): (r: Reply<ContextResponse>)
    ensures sid !in reg ==> r == Reply(reg, ContextResponse(false, SidNotFound, false, false), {}, [])
    ensures sid in reg && cid !in reg[sid].connections ==>
      && r.resp == ContextResponse(false, CidNotFound, false, false)
      && Refreshed(reg, r.reg, sid, now)
      && r.closed == {}
    ensures sid in reg && cid in reg[sid].connections ==>
      && r.resp == ContextResponse(true, Disconnected, false, false)
      && r.reg.Keys == reg.Keys
      && OthersUnchanged(reg, r.reg, {sid})
      && r.reg[sid] == reg[sid].(lastAccess := now, connections := reg[sid].connections - {cid})
      && r.closed == {ConnKey(sid, cid)}
    ensures forall k :: IsLive(r.reg, k) <==> IsLive(reg, k) && k !in r.closed
    ensures r.sent == []
  {
    var chk := CheckSession(reg, sid, now);
    if chk.session.None? then
      Reply(chk.reg, ContextResponse(false, chk.message, false, false), {}, [])
    else
      var cc := CheckConnection(chk.reg, sid, cid, now, probe);
      if cc.connection.None? then
        Reply(cc.reg, ContextResponse(false, cc.message, cc.connected, cc.dataAvailable), {}, [])
      else
        var rm := RemoveConnection(cc.reg, sid, cid);
        Reply(rm.reg, ContextResponse(true, Disconnected, false, false), rm.closed, [])
  }

  /** Read: unless the probe finds the socket both connected and readable,
      the answer is success with an empty payload. Otherwise one bounded read
      happens: `count > 0` bytes are returned transformed with the cid key and
      added to the read counter; `count == 0` means the peer closed and the
      read fails with no data; a socket fault fails likewise. */
  function Read(reg: Registry, sid: int, cid: int, now: int, probe: Probe, stream: StreamRead, enc: Encoder)
    : (r: Reply<ReadResponse>)
    ensures sid !in reg ==> r == Reply(reg, ReadResponse(false, SidNotFound, false, false, None), {}, [])
    ensures sid in reg && cid !in reg[sid].connections ==>
      && r.resp == ReadResponse(false, CidNotFound, false, false, None)
      && Refreshed(reg, r.reg, sid, now)
    ensures sid in reg && cid in reg[sid].connections && !(probe.connected && probe.dataAvailable) ==>
      && r.resp == ReadResponse(true, NoMessage, probe.connected, probe.dataAvailable, Some([]))
      && Transferred(reg, r.reg, sid, cid, now, 0, 0)
    ensures sid in reg && cid in reg[sid].connections && probe.connected && probe.dataAvailable ==>
      && r.resp.connected && r.resp.dataAvailable
      && (r.resp.success <==> stream.Received? && |stream.bytes| > 0)
      && (r.resp.success ==>
            && stream.Received? && r.resp.data.Some?
            && var count := |r.resp.data.value|;
            && 0 < count <= BUFFER_SIZE && count <= |stream.bytes|
            && r.resp.data == Some(enc(stream.bytes[..count], cid))
            && (count == BUFFER_SIZE || count == |stream.bytes|)
            && Transferred(reg, r.reg, sid, cid, now, count, 0))
      && (!r.resp.success ==> r.resp.data == None && Transferred(reg, r.reg, sid, cid, now, 0, 0))
      && (stream == Received([]) ==> r.resp.message == DisconnectionDetected)
    ensures r.closed == {} && r.sent == []
  {
    var chk := CheckSession(reg, sid, now);
    if chk.session.None? then
      Reply(chk.reg, ReadResponse(false, chk.message, false, false, None), {}, [])
    else
      var cc := CheckConnection(chk.reg, sid, cid, now, probe);
      if cc.connection.None? then
        Reply(cc.reg, ReadResponse(false, cc.message, cc.connected, cc.dataAvailable, None), {}, [])
      else if !(cc.connected && cc.dataAvailable) then
        Reply(cc.reg, ReadResponse(true, NoMessage, cc.connected, cc.dataAvailable, Some([])), {}, [])
      else
        match stream
        case ReadFault =>
          Reply(cc.reg, ReadResponse(false, SocketFault, true, true, None), {}, [])
        case Received(bytes) =>
          var buffer := Take(bytes, BUFFER_SIZE);
          if |buffer| > 0 then
            var c := cc.connection.value;
            Reply(PutConnection(cc.reg, sid, cid, c.(readCount := c.readCount + |buffer|)),
                  ReadResponse(true, NoMessage, true, true, Some(enc(buffer, cid))), {}, [])
          else
            Reply(cc.reg, ReadResponse(false, DisconnectionDetected, true, true, None), {}, [])
  }

  /** Write: the payload is transformed with the cid key and written whole to
      the outbound socket; on success the write counter grows by its length,
      on a socket fault the write fails and no counter moves. */
  function Write(reg: Registry, sid: int, cid: int, data: seq<byte>, now: int, probe: Probe, writeOk: bool, enc: Encoder)
    : (r: Reply<ContextResponse>)
    ensures sid !in reg ==> r == Reply(reg, ContextResponse(false, SidNotFound, false, false), {}, [])
    ensures sid in reg && cid !in reg[sid].connections ==>
      && r.resp == ContextResponse(false, CidNotFound, false, false)
      && Refreshed(reg, r.reg, sid, now)
      && r.sent == []
    ensures sid in reg && cid in reg[sid].connections ==>
      && r.resp.connected == probe.connected && r.resp.dataAvailable == probe.dataAvailable
      && r.resp.success == writeOk
      && (writeOk ==> r.sent == enc(data, cid) && |r.sent| == |data|
                      && Transferred(reg, r.reg, sid, cid, now, 0, |data|))
      && (!writeOk ==> r.sent == [] && r.resp.message == SocketFault
                       && Transferred(reg, r.reg, sid, cid, now, 0, 0))
    ensures r.closed == {}
  {
    var chk := CheckSession(reg, sid, now);
    if chk.session.None? then
      Reply(chk.reg, ContextResponse(false, chk.message, false, false), {}, [])
    else
      var cc := CheckConnection(chk.reg, sid, cid, now, probe);
      if cc.connection.None? then
        Reply(cc.reg, ContextResponse(false, cc.message, cc.connected, cc.dataAvailable), {}, [])
      else if writeOk then
        var payload := enc(data, cid);
        var c := cc.connection.value;
        Reply(PutConnection(cc.reg, sid, cid, c.(writeCount := c.writeCount + |payload|)),
              ContextResponse(true, NoMessage, cc.connected, cc.dataAvailable), {}, payload)
      else
        Reply(cc.reg, ContextResponse(false, SocketFault, cc.connected, cc.dataAvailable), {}, [])
  }

  /** One monitor row: it carries the session's fields, and its id text reads
      back as the 32-bit pattern of the sid. */
  function Describe(sid: int, s: Session): (row: SessionInfo)
    ensures forall i :: 0 <= i < |row.sid| ==> Hex.IsHexDigit(row.sid[i])
    ensures INT_MIN <= sid <= INT_MAX ==>
      Hex.ParseHex(row.sid) == if 0 <= sid then sid else sid + 0x1_0000_0000
    ensures && row.username == s.username && row.admin == s.admin
            && row.logon == s.logon && row.lastAccess == s.lastAccess
            && row.connections == s.connections
  {
    var row := SessionInfo(Hex.Int32Hex(sid), s.username, s.admin, s.logon, s.lastAccess, s.connections);
    if INT_MIN <= sid <= INT_MAX then Hex.Int32HexRoundTrip(sid); row else row
  }

  /** The monitor listing, following the dictionary's enumeration order
      `order`; ids not in the registry are skipped. */
  function Export(reg: Registry, order: seq<int>): (out: seq<SessionInfo>)
    ensures |out| <= |order|
    ensures (forall i :: 0 <= i < |order| ==> order[i] in reg) ==>
      && |out| == |order|
      && forall i :: 0 <= i < |out| ==> out[i] == Describe(order[i], reg[order[i]])
  {
    if |order| == 0 then []
    else
      var rest := Export(reg, order[1..]);
      if order[0] in reg then [Describe(order[0], reg[order[0]])] + rest else rest
  }

  /** Monitor: only an admin caller gets the listing of every session; any
      other caller gets a failure and no listing, and no membership changes. */
  function Monitor(reg: Registry, sid: int, now: int, order: seq<int>): (r: Reply<MonitorResponse>)
    ensures sid !in reg ==> r == Reply(reg, MonitorResponse(false, SidNotFound, None), {}, [])
    ensures sid in reg && !reg[sid].admin ==>
      && r.resp == MonitorResponse(false, AdminRequired, None)
      && Refreshed(reg, r.reg, sid, now)
    ensures sid in reg && reg[sid].admin ==>
      && r.resp.success && r.resp.message == NoMessage
      && Refreshed(reg, r.reg, sid, now)
      && r.resp.sessions == Some(Export(r.reg, order))
    ensures OnlyAccessChanged(reg, r.reg, now)
    ensures r.closed == {} && r.sent == []
  {
    var chk := CheckSession(reg, sid, now);
    if chk.session.None? then
      Reply(chk.reg, MonitorResponse(false, chk.message, None), {}, [])
    else if chk.session.value.admin then
      Reply(chk.reg, MonitorResponse(true, NoMessage, Some(Export(chk.reg, order))), {}, [])
    else
      Reply(chk.reg, MonitorResponse(false, AdminRequired, None), {}, [])
  }

  /** KillSession: the target id is checked before the admin id, so an
      unknown target fails without touching anything. A caller that is unknown
      or not an admin fails and removes nothing. An admin's kill closes every
      connection of the target, removes it, and leaves the others intact
      (the admin's own session refreshed). */
  function KillSession(reg: Registry, adminSid: int, sid: int, now: int): (r: Reply<MinimalResponse>)
    ensures sid !in reg ==> r == Reply(reg, MinimalResponse(false, SidNotFound), {}, [])
    ensures sid in reg && adminSid !in reg ==>
      && r.resp == MinimalResponse(false, SidNotFound)
      && Refreshed(reg, r.reg, sid, now)
    ensures !(adminSid in reg && reg[adminSid].admin) ==>
      && !r.resp.success
      && OnlyAccessChanged(reg, r.reg, now)
      && r.closed == {}
    ensures sid in reg && adminSid in reg && !reg[adminSid].admin ==> r.resp == MinimalResponse(false, AdminRequired)
    ensures sid in reg && adminSid in reg && reg[adminSid].admin ==>
      && r.resp == MinimalResponse(true, SessionKilled)
      && r.reg.Keys == reg.Keys - {sid}
      && OthersUnchanged(reg, r.reg, {sid, adminSid})
      && (adminSid != sid ==> r.reg[adminSid] == reg[adminSid].(lastAccess := now))
      && r.closed == Owned(sid, reg[sid])
    ensures forall k :: IsLive(r.reg, k) <==> IsLive(reg, k) && k !in r.closed
    ensures r.sent == []
  {
    var target := CheckSession(reg, sid, now);
    if target.session.None? then
      Reply(target.reg, MinimalResponse(false, target.message), {}, [])
    else
      var caller := CheckSession(target.reg, adminSid, now);
      if caller.session.None? then
        Reply(caller.reg, MinimalResponse(false, caller.message), {}, [])
      else if !caller.session.value.admin then
        Reply(caller.reg, MinimalResponse(false, AdminRequired), {}, [])
      else
        var rm := RemoveSession(caller.reg, sid);
        Reply(rm.reg, MinimalResponse(true, SessionKilled), rm.closed, [])
  }

  /** KillConnection: target session, then target connection, then the
      caller are checked in that order. A caller that is unknown or not an
      admin fails and removes nothing; an admin's kill closes and removes
      exactly the target connection. */
  function KillConnection(reg: Registry, adminSid: int, sid: int, cid: int, now: int, probe: Probe)
    : (r: Reply<ContextResponse>)
    ensures sid !in reg ==> r == Reply(reg, ContextResponse(false, SidNotFound, false, false), {}, [])
    ensures sid in reg && cid !in reg[sid].connections ==>
      && r.resp == ContextResponse(false, CidNotFound, false, false)
      && Refreshed(reg, r.reg, sid, now)
    ensures !(adminSid in reg && reg[adminSid].admin) ==>
      && !r.resp.success
      && OnlyAccessChanged(reg, r.reg, now)
      && r.closed == {}
    ensures sid in reg && cid in reg[sid].connections && adminSid !in reg ==>
      r.resp == ContextResponse(false, SidNotFound, probe.connected, probe.dataAvailable)
    ensures sid in reg && cid in reg[sid].connections && adminSid in reg && !reg[adminSid].admin ==>
      r.resp == ContextResponse(false, AdminRequired, probe.connected, probe.dataAvailable)
    ensures sid in reg && cid in reg[sid].connections && adminSid in reg && reg[adminSid].admin ==>
      && r.resp == ContextResponse(true, ConnectionKilled, false, false)
      && r.reg.Keys == reg.Keys
      && OthersUnchanged(reg, r.reg, {sid, adminSid})
      && r.reg[sid] == reg[sid].(lastAccess := now, connections := reg[sid].connections - {cid})
      && (adminSid != sid ==> r.reg[adminSid] == reg[adminSid].(lastAccess := now))
      && r.closed == {ConnKey(sid, cid)}
    ensures forall k :: IsLive(r.reg, k) <==> IsLive(reg, k) && k !in r.closed
    ensures r.sent == []
  {
    var target := CheckSession(reg, sid, now);
    if target.session.None? then
      Reply(target.reg, ContextResponse(false, target.message, false, false), {}, [])
    else
      var cc := CheckConnection(target.reg, sid, cid, now, probe);
      if cc.connection.None? then
        Reply(cc.reg, ContextResponse(false, cc.message, cc.connected, cc.dataAvailable), {}, [])
      else
        var r := KillAuthorized(cc.reg, adminSid, sid, cid, now, cc.connected, cc.dataAvailable);
        if adminSid in reg && reg[adminSid].admin then r
        else
          RefreshedIsAccessOnly(reg, target.reg, sid, now);
          TransferredIsAccessOnly(target.reg, cc.reg, sid, cid, now);
          AccessOnlyTrans(reg, target.reg, cc.reg, now);
          AccessOnlyTrans(reg, cc.reg, r.reg, now);
          r
  }

  /** The caller check of KillConnection, once the target connection is known
      to exist: an unknown caller fails with its session id not found, a
      non-admin one is refused, and only an admin's request closes and removes
      the connection. `connected` and `dataAvailable` are the probe's report
      on the target. */
  function KillAuthorized(reg: Registry, adminSid: int, sid: int, cid: int, now: int, connected: bool, dataAvailable: bool)
    : (r: Reply<ContextResponse>)
    requires sid in reg && cid in reg[sid].connections
    ensures adminSid !in reg ==> r == Reply(reg, ContextResponse(false, SidNotFound, connected, dataAvailable), {}, [])
    ensures adminSid in reg && !reg[adminSid].admin ==>
      && r.resp == ContextResponse(false, AdminRequired, connected, dataAvailable)
      && Refreshed(reg, r.reg, adminSid, now)
      && r.closed == {}
    ensures !(adminSid in reg && reg[adminSid].admin) ==> OnlyAccessChanged(reg, r.reg, now)
    ensures adminSid in reg && reg[adminSid].admin ==>
      && r.resp == ContextResponse(true, ConnectionKilled, false, false)
      && r.reg.Keys == reg.Keys
      && OthersUnchanged(reg, r.reg, {sid, adminSid})
      && r.reg[sid] == reg[sid].(lastAccess := r.reg[sid].lastAccess, connections := reg[sid].connections - {cid})
      && r.reg[sid].lastAccess == (if adminSid == sid then now else reg[sid].lastAccess)
      && (adminSid != sid ==> r.reg[adminSid] == reg[adminSid].(lastAccess := now))
      && r.closed == {ConnKey(sid, cid)}
    ensures forall k :: IsLive(r.reg, k) <==> IsLive(reg, k) && k !in r.closed
    ensures r.sent == []
  {
    var caller := CheckSession(reg, adminSid, now);
    if caller.session.None? then
      Reply(caller.reg, ContextResponse(false, caller.message, connected, dataAvailable), {}, [])
    else if !caller.session.value.admin then
      RefreshedIsAccessOnly(reg, caller.reg, adminSid, now);
      Reply(caller.reg, ContextResponse(false, AdminRequired, connected, dataAvailable), {}, [])
    else
      var rm := RemoveConnection(caller.reg, sid, cid);
      Reply(rm.reg, ContextResponse(true, ConnectionKilled, false, false), rm.closed, [])
  }
}

=== FILE: tunnel_properties.dfy ===
/** Properties of the tunnel service that span handlers or several calls:
    the registry invariant kept by every request and every trace of
    requests, failures that change nothing but access times, connections
    that never leak, fresh ids, and the completeness of the monitor listing. */
module TunnelProperties {
  import opened Base
  import opened SessionStore
  import opened Protocol
  import opened Tunnel
  import Hex

  /** Any request the service answers. */
  datatype Request =
    | LoginRequest(username: string, password: string)
    | LogoutRequest(sid: int)
    | ConnectRequest(sid: int, address: string, port: int)
    | DisconnectRequest(sid: int, cid: int)
    | ReadRequest(sid: int, cid: int)
    | WriteRequest(sid: int, cid: int, data: seq<byte>)
    | MonitorRequest(sid: int)
    | KillSessionRequest(adminSid: int, sid: int)
    | KillConnectionRequest(adminSid: int, sid: int, cid: int)

  /** What the environment does while one request is served. */
  datatype Env = Env(seed: nat, dial: DialOutcome, probe: Probe, stream: StreamRead, writeOk: bool, order: seq<int>)

  /** The part of a reply every handler has: the registry afterwards, the
      success flag, the connections closed and the connection created. */
  datatype Effect = Effect(reg: Registry, success: bool, closed: set<ConnKey>, created: set<ConnKey>)

  function Handle(reg: Registry, config: Config, req: Request, now: int, env: Env, enc: Encoder): Effect
  {
    match req
    case LoginRequest(u, p) =>
      var r := Login(reg, config, u, p, now, env.seed);
      Effect(r.reg, r.resp.success, r.closed, {})
    case LogoutRequest(sid) =>
      var r := Logout(reg, sid, now);
      Effect(r.reg, r.resp.success, r.closed, {})
    case ConnectRequest(sid, address, port) =>
      var r := Connect(reg, sid, address, port, now, env.dial, env.seed);
      Effect(r.reg, r.resp.success, r.closed, if r.resp.success then {ConnKey(sid, r.resp.cid)} else {})
    case DisconnectRequest(sid, cid) =>
      var r := Disconnect(reg, sid, cid, now, env.probe);
      Effect(r.reg, r.resp.success, r.closed, {})
    case ReadRequest(sid, cid) =>
      var r := Read(reg, sid, cid, now, env.probe, env.stream, enc);
      Effect(r.reg, r.resp.success, r.closed, {})
    case WriteRequest(sid, cid, data) =>
      var r := Write(reg, sid, cid, data, now, env.probe, env.writeOk, enc);
      Effect(r.reg, r.resp.success, r.closed, {})
    case MonitorRequest(sid) =>
      var r := Monitor(reg, sid, now, env.order);
      Effect(r.reg, r.resp.success, r.closed, {})
    case KillSessionRequest(adminSid, sid) =>
      var r := KillSession(reg, adminSid, sid, now);
      Effect(r.reg, r.resp.success, r.closed, {})
    case KillConnectionRequest(adminSid, sid, cid) =>
      var r := KillConnection(reg, adminSid, sid, cid, now, env.probe);
      Effect(r.reg, r.resp.success, r.closed, {})
  }

  lemma ValidLater(reg: Registry, earlier: int, now: int)
    requires Valid(reg, earlier) && earlier <= now
    ensures Valid(reg, now)
  {
    forall sid | sid in reg
      ensures ValidSession(sid, reg[sid], now)
    {
      assert ValidSession(sid, reg[sid], earlier);
    }
  }

  lemma RefreshedValid(reg: Registry, reg': Registry, sid: int, now: int)
    requires Valid(reg, now) && Refreshed(reg, reg', sid, now)
    ensures Valid(reg', now)
  {
    forall s | s in reg'
      ensures ValidSession(s, reg'[s], now)
    {
      assert ValidSession(s, reg[s], now);
    }
  }

  lemma TransferredValid(reg: Registry, reg': Registry, sid: int, cid: int, now: int, read: nat, written: nat)
    requires Valid(reg, now) && Transferred(reg, reg', sid, cid, now, read, written)
    ensures Valid(reg', now)
  {
    forall s | s in reg'
      ensures ValidSession(s, reg'[s], now)
    {
      assert ValidSession(s, reg[s], now);
      if s == sid {
        forall c | c in reg'[s].connections
          ensures ValidConnection(c, reg'[s].connections[c], now)
        {
          assert ValidConnection(c, reg[s].connections[c], now);
        }
      }
    }
  }

  /** Removing sessions and connections keeps the invariant. */
  lemma ShrunkValid(reg: Registry, reg': Registry, touched: set<int>, now: int)
    requires Valid(reg, now)
    requires reg'.Keys <= reg.Keys
    requires OthersUnchanged(reg, reg', touched)
    requires forall sid :: sid in touched && sid in reg' ==>
      && reg'[sid].(lastAccess := reg[sid].lastAccess, connections := reg[sid].connections) == reg[sid]
      && reg[sid].lastAccess <= reg'[sid].lastAccess <= now
      && reg'[sid].connections.Keys <= reg[sid].connections.Keys
      && forall c :: c in reg'[sid].connections ==> reg'[sid].connections[c] == reg[sid].connections[c]
    ensures Valid(reg', now)
  {
    forall s | s in reg'
      ensures ValidSession(s, reg'[s], now)
    {
      assert ValidSession(s, reg[s], now);
    }
  }

  lemma LoginKeepsValid(reg: Registry, config: Config, username: string, password: string, now: int, seed: nat)
    requires Valid(reg, now)
    ensures Valid(Login(reg, config, username, password, now, seed).reg, now)
  {
    var r := Login(reg, config, username, password, now, seed);
    forall s | s in r.reg
      ensures ValidSession(s, r.reg[s], now)
    {
      if s in reg {
        assert ValidSession(s, reg[s], now);
      }
    }
  }

  lemma ConnectKeepsValid(reg: Registry, sid: int, address: string, port: int, now: int, dial: DialOutcome, seed: nat)
    requires Valid(reg, now)
    ensures Valid(Connect(reg, sid, address, port, now, dial, seed).reg, now)
  {
    var r := Connect(reg, sid, address, port, now, dial, seed);
    if sid in reg {
      if dial.Refused? {
        RefreshedValid(reg, r.reg, sid, now);
      } else {
        forall s | s in r.reg
          ensures ValidSession(s, r.reg[s], now)
        {
          assert ValidSession(s, reg[s], now);
        }
      }
    }
  }

  lemma DisconnectKeepsValid(reg: Registry, sid: int, cid: int, now: int, probe: Probe)
    requires Valid(reg, now)
    ensures Valid(Disconnect(reg, sid, cid, now, probe).reg, now)
  {
    var r := Disconnect(reg, sid, cid, now, probe);
    if sid in reg && cid !in reg[sid].connections {
      RefreshedValid(reg, r.reg, sid, now);
    } else {
      ShrunkValid(reg, r.reg, {sid}, now);
    }
  }

  lemma ReadKeepsValid(reg: Registry, sid: int, cid: int, now: int, probe: Probe, stream: StreamRead, enc: Encoder)
    requires Valid(reg, now)
    ensures Valid(Read(reg, sid, cid, now, probe, stream, enc).reg, now)
  {
    var r := Read(reg, sid, cid, now, probe, stream, enc);
    if sid in reg && cid !in reg[sid].connections {
      RefreshedValid(reg, r.reg, sid, now);
    } else if sid in reg {
      if r.resp.success && probe.connected && probe.dataAvailable {
        TransferredValid(reg, r.reg, sid, cid, now, |r.resp.data.value|, 0);
      } else {
        TransferredValid(reg, r.reg, sid, cid, now, 0, 0);
      }
    }
  }

  lemma WriteKeepsValid(reg: Registry, sid: int, cid: int, data: seq<byte>, now: int, probe: Probe, writeOk: bool, enc: Encoder)
    requires Valid(reg, now)
    ensures Valid(Write(reg, sid, cid, data, now, probe, writeOk, enc).reg, now)
  {
    var r := Write(reg, sid, cid, data, now, probe, writeOk, enc);
    if sid in reg && cid !in reg[sid].connections {
      RefreshedValid(reg, r.reg, sid, now);
    } else if sid in reg {
      TransferredValid(reg, r.reg, sid, cid, now, 0, if writeOk then |data| else 0);
    }
  }

  lemma KillSessionKeepsValid(reg: Registry, adminSid: int, sid: int, now: int)
    requires Valid(reg, now)
    ensures Valid(KillSession(reg, adminSid, sid, now).reg, now)
  {
    var r := KillSession(reg, adminSid, sid, now);
    if sid in reg && adminSid in reg && reg[adminSid].admin {
      ShrunkValid(reg, r.reg, {sid, adminSid}, now);
    } else {
      OnlyAccessValid(reg, r.reg, now);
    }
  }

  lemma KillConnectionKeepsValid(reg: Registry, adminSid: int, sid: int, cid: int, now: int, probe: Probe)
    requires Valid(reg, now)
    ensures Valid(KillConnection(reg, adminSid, sid, cid, now, probe).reg, now)
  {
    var r := KillConnection(reg, adminSid, sid, cid, now, probe);
    if sid in reg && cid in reg[sid].connections && adminSid in reg && reg[adminSid].admin {
      forall s | s in r.reg
        ensures ValidSession(s, r.reg[s], now)
      {
        assert ValidSession(s, reg[s], now);
      }
    } else {
      OnlyAccessValid(reg, r.reg, now);
    }
  }

  /** Every request, served at a time no earlier than the registry's clock,
      keeps the registry invariant. */
  lemma HandlePreservesValid(reg: Registry, config: Config, req: Request, earlier: int, now: int, env: Env, enc: Encoder)
    requires Valid(reg, earlier) && earlier <= now
    ensures Valid(Handle(reg, config, req, now, env, enc).reg, now)
  {
    ValidLater(reg, earlier, now);
    match req
    case LoginRequest(u, p) => LoginKeepsValid(reg, config, u, p, now, env.seed);
    case LogoutRequest(sid) => ShrunkValid(reg, Logout(reg, sid, now).reg, {sid}, now);
    case ConnectRequest(sid, address, port) => ConnectKeepsValid(reg, sid, address, port, now, env.dial, env.seed);
    case DisconnectRequest(sid, cid) => DisconnectKeepsValid(reg, sid, cid, now, env.probe);
    case ReadRequest(sid, cid) => ReadKeepsValid(reg, sid, cid, now, env.probe, env.stream, enc);
    case WriteRequest(sid, cid, data) => WriteKeepsValid(reg, sid, cid, data, now, env.probe, env.writeOk, enc);
    case MonitorRequest(sid) =>
      if sid in reg {
        RefreshedValid(reg, Monitor(reg, sid, now, env.order).reg, sid, now);
      }
    case KillSessionRequest(adminSid, sid) => KillSessionKeepsValid(reg, adminSid, sid, now);
    case KillConnectionRequest(adminSid, sid, cid) => KillConnectionKeepsValid(reg, adminSid, sid, cid, now, env.probe);
  }

  /** Refreshing access times to `now` keeps the invariant: times only move
      forward and never past `now`. */
  lemma OnlyAccessValid(reg: Registry, reg': Registry, now: int)
    requires Valid(reg, now) && OnlyAccessChanged(reg, reg', now)
    ensures Valid(reg', now)
  {
    forall s | s in reg'
      ensures ValidSession(s, reg'[s], now)
    {
      assert ValidSession(s, reg[s], now);
      assert OnlyAccessChangedIn(reg[s], reg'[s], now);
      forall c | c in reg'[s].connections
        ensures ValidConnection(c, reg'[s].connections[c], now)
      {
        assert ValidConnection(c, reg[s].connections[c], now);
      }
    }
  }

  /** A request that fails adds nothing, removes nothing, closes nothing and
      moves no byte counter: at most access times are refreshed to `now`. */
  lemma FailureChangesOnlyAccess(reg: Registry, config: Config, req: Request, now: int, env: Env, enc: Encoder)
    ensures var e := Handle(reg, config, req, now, env, enc);
      !e.success ==> OnlyAccessChanged(reg, e.reg, now) && e.closed == {} && e.created == {}
  {
    var e := Handle(reg, config, req, now, env, enc);
    if !e.success {
      match req
      case LoginRequest(u, p) =>
      case LogoutRequest(sid) =>
      case ConnectRequest(sid, address, port) =>
        if sid in reg {
          RefreshedIsAccessOnly(reg, e.reg, sid, now);
        }
      case DisconnectRequest(sid, cid) =>
        if sid in reg {
          RefreshedIsAccessOnly(reg, e.reg, sid, now);
        }
      case ReadRequest(sid, cid) =>
        if sid in reg && cid !in reg[sid].connections {
          RefreshedIsAccessOnly(reg, e.reg, sid, now);
        } else if sid in reg {
          TransferredIsAccessOnly(reg, e.reg, sid, cid, now);
        }
      case WriteRequest(sid, cid, data) =>
        if sid in reg && cid !in reg[sid].connections {
          RefreshedIsAccessOnly(reg, e.reg, sid, now);
        } else if sid in reg {
          TransferredIsAccessOnly(reg, e.reg, sid, cid, now);
        }
      case MonitorRequest(sid) =>
      case KillSessionRequest(adminSid, sid) =>
        if adminSid in reg && reg[adminSid].admin {
          if sid in reg {
            assert false;
          }
        }
      case KillConnectionRequest(adminSid, sid, cid) =>
        if sid in reg && cid !in reg[sid].connections {
          RefreshedIsAccessOnly(reg, e.reg, sid, now);
        }
    }
  }

  /** The accounting of connections across one effect: a connection is live
      afterwards exactly when it was live before and not closed, or was just
      created; only live connections are closed, and only fresh ones created. */
  ghost predicate Accounted(reg: Registry, e: Effect)
  {
    && (forall k :: IsLive(e.reg, k) <==> (IsLive(reg, k) && k !in e.closed) || k in e.created)
    && (forall k :: k in e.closed ==> IsLive(reg, k))
    && (forall k :: k in e.created ==> !IsLive(reg, k))
  }

  /** No request leaks a connection: a connection is live afterwards exactly
      when it was live before and not closed, or was just created; only live
      connections are closed, and only fresh ones are created. */
  lemma NoConnectionLeaks(reg: Registry, config: Config, req: Request, now: int, env: Env, enc: Encoder)
    ensures var e := Handle(reg, config, req, now, env, enc);
      && (forall k :: IsLive(e.reg, k) <==> (IsLive(reg, k) && k !in e.closed) || k in e.created)
      && (forall k :: k in e.closed ==> IsLive(reg, k))
      && (forall k :: k in e.created ==> !IsLive(reg, k))
  {
    assert Accounted(reg, Handle(reg, config, req, now, env, enc)) by {
      match req
      case LoginRequest(u, p) => LoginAccounted(reg, config, u, p, now, env, enc);
      case LogoutRequest(sid) => LogoutAccounted(reg, config, sid, now, env, enc);
      case ConnectRequest(sid, address, port) => ConnectAccounted(reg, config, sid, address, port, now, env, enc);
      case DisconnectRequest(sid, cid) => DisconnectAccounted(reg, config, sid, cid, now, env, enc);
      case ReadRequest(sid, cid) => ReadAccounted(reg, config, sid, cid, now, env, enc);
      case WriteRequest(sid, cid, data) => WriteAccounted(reg, config, sid, cid, data, now, env, enc);
      case MonitorRequest(sid) => MonitorAccounted(reg, config, sid, now, env, enc);
      case KillSessionRequest(adminSid, sid) => KillSessionAccounted(reg, config, adminSid, sid, now, env, enc);
      case KillConnectionRequest(adminSid, sid, cid) => KillConnectionAccounted(reg, config, adminSid, sid, cid, now, env, enc);
    }
  }

  lemma LoginAccounted(reg: Registry, config: Config, u: string, p: string, now: int, env: Env, enc: Encoder)
    ensures Accounted(reg, Handle(reg, config, LoginRequest(u, p), now, env, enc))
  {
    var e := Handle(reg, config, LoginRequest(u, p), now, env, enc);
    var r := Login(reg, config, u, p, now, env.seed);
    forall k
      ensures IsLive(e.reg, k) <==> IsLive(reg, k)
    {
      if r.resp.success && k.sid == r.resp.sid {
        assert k.sid !in reg;
      }
    }
  }

  lemma LogoutAccounted(reg: Registry, config: Config, sid: int, now: int, env: Env, enc: Encoder)
    ensures Accounted(reg, Handle(reg, config, LogoutRequest(sid), now, env, enc))
  {
  }

  lemma ConnectAccounted(reg: Registry, config: Config, sid: int, address: string, port: int, now: int, env: Env, enc: Encoder)
    ensures Accounted(reg, Handle(reg, config, ConnectRequest(sid, address, port), now, env, enc))
  {
  }

  lemma DisconnectAccounted(reg: Registry, config: Config, sid: int, cid: int, now: int, env: Env, enc: Encoder)
    ensures Accounted(reg, Handle(reg, config, DisconnectRequest(sid, cid), now, env, enc))
  {
  }

  lemma ReadAccounted(reg: Registry, config: Config, sid: int, cid: int, now: int, env: Env, enc: Encoder)
    ensures Accounted(reg, Handle(reg, config, ReadRequest(sid, cid), now, env, enc))
  {
    var e := Handle(reg, config, ReadRequest(sid, cid), now, env, enc);
    assert forall k :: IsLive(e.reg, k) <==> IsLive(reg, k);
  }

  lemma WriteAccounted(reg: Registry, config: Config, sid: int, cid: int, data: seq<byte>, now: int, env: Env, enc: Encoder)
    ensures Accounted(reg, Handle(reg, config, WriteRequest(sid, cid, data), now, env, enc))
  {
    var e := Handle(reg, config, WriteRequest(sid, cid, data), now, env, enc);
    assert forall k :: IsLive(e.reg, k) <==> IsLive(reg, k);
  }

  lemma MonitorAccounted(reg: Registry, config: Config, sid: int, now: int, env: Env, enc: Encoder)
    ensures Accounted(reg, Handle(reg, config, MonitorRequest(sid), now, env, enc))
  {
    var e := Handle(reg, config, MonitorRequest(sid), now, env, enc);
    assert forall k :: IsLive(e.reg, k) <==> IsLive(reg, k);
  }

  lemma KillSessionAccounted(reg: Registry, config: Config, adminSid: int, sid: int, now: int, env: Env, enc: Encoder)
    ensures Accounted(reg, Handle(reg, config, KillSessionRequest(adminSid, sid), now, env, enc))
  {
  }

  lemma KillConnectionAccounted(reg: Registry, config: Config, adminSid: int, sid: int, cid: int, now: int, env: Env, enc: Encoder)
    ensures Accounted(reg, Handle(reg, config, KillConnectionRequest(adminSid, sid, cid), now, env, enc))
  {
  }

  /** One served request of a trace: the request, the time it is served and
      what the environment did meanwhile. */
  datatype Served = Served(req: Request, now: int, env: Env)

  /** The clock never runs backwards along a trace that starts at `start`. */
  predicate Chronological(start: int, trace: seq<Served>)
  {
    && (|trace| > 0 ==> start <= trace[0].now)
    && forall i :: 0 < i < |trace| ==> trace[i - 1].now <= trace[i].now
  }

  function Replay(reg: Registry, config: Config, trace: seq<Served>, enc: Encoder): Registry
    decreases |trace|
  {
    if |trace| == 0 then reg
    else Replay(Handle(reg, config, trace[0].req, trace[0].now, trace[0].env, enc).reg, config, trace[1..], enc)
  }

  /** The registry invariant holds after any chronological trace of requests,
      with the clock at the time of the last one. */
  lemma {:induction false} ReplayKeepsValid(reg: Registry, config: Config, start: int, trace: seq<Served>, enc: Encoder)
    requires Valid(reg, start) && Chronological(start, trace)
    ensures Valid(Replay(reg, config, trace, enc), if |trace| == 0 then start else trace[|trace| - 1].now)
    decreases |trace|
  {
    if |trace| > 0 {
      var t := trace[0];
      HandlePreservesValid(reg, config, t.req, start, t.now, t.env, enc);
      var rest := trace[1..];
      assert Chronological(t.now, rest) by {
        forall i | 0 < i < |rest|
          ensures rest[i - 1].now <= rest[i].now
        {
          assert rest[i - 1] == trace[i] && rest[i] == trace[i + 1];
        }
        if |rest| > 0 {
          assert rest[0] == trace[1];
        }
      }
      ReplayKeepsValid(Handle(reg, config, t.req, t.now, t.env, enc).reg, config, t.now, rest, enc);
    }
  }

  /** Two successful logins in a row hand out two distinct ids, both of
      which are registered afterwards. */
  lemma LoginIdsDistinct(reg: Registry, config: Config, u1: string, p1: string, u2: string, p2: string, now: int, seed1: nat, seed2: nat)
    requires Login(reg, config, u1, p1, now, seed1).resp.success
    requires Login(Login(reg, config, u1, p1, now, seed1).reg, config, u2, p2, now, seed2).resp.success
    ensures var r1 := Login(reg, config, u1, p1, now, seed1);
      var r2 := Login(r1.reg, config, u2, p2, now, seed2);
      && r1.resp.sid != r2.resp.sid
      && r1.resp.sid in r2.reg && r2.resp.sid in r2.reg
      && r2.reg[r1.resp.sid].username == u1 && r2.reg[r2.resp.sid].username == u2
  {
  }

  /** Disconnecting a connection twice: the first call removes it and
      reports it disconnected, the second finds no such connection. */
  lemma DisconnectTwice(reg: Registry, sid: int, cid: int, now: int, later: int, probe: Probe, probe': Probe)
    requires sid in reg && cid in reg[sid].connections
    ensures var r1 := Disconnect(reg, sid, cid, now, probe);
      var r2 := Disconnect(r1.reg, sid, cid, later, probe');
      && r1.resp == ContextResponse(true, Disconnected, false, false)
      && r2.resp == ContextResponse(false, CidNotFound, false, false)
      && r2.closed == {}
  {
  }

  /** Reaching the service with a connected, readable socket and then
      disconnecting: what Connect created is exactly what Disconnect closes. */
  lemma ConnectThenDisconnect(reg: Registry, sid: int, address: string, port: int, now: int, host: Option<string>, available: bool, seed: nat, probe: Probe)
    requires sid in reg
    ensures var c := Connect(reg, sid, address, port, now, Dialed(host, available), seed);
      var d := Disconnect(c.reg, sid, c.resp.cid, now, probe);
      && c.resp.success && c.resp.connected
      && d.resp == ContextResponse(true, Disconnected, false, false)
      && d.closed == {ConnKey(sid, c.resp.cid)}
      && d.reg[sid].connections == reg[sid].connections
  {
    var c := Connect(reg, sid, address, port, now, Dialed(host, available), seed);
    var d := Disconnect(c.reg, sid, c.resp.cid, now, probe);
    assert d.reg[sid].connections == reg[sid].connections;
  }

  /** A successful read always carries a payload (never a null one). */
  lemma ReadSuccessCarriesData(reg: Registry, sid: int, cid: int, now: int, probe: Probe, stream: StreamRead, enc: Encoder)
    ensures var r := Read(reg, sid, cid, now, probe, stream, enc);
      r.resp.success ==> r.resp.data.Some? && |r.resp.data.value| <= BUFFER_SIZE
  {
  }

  predicate Distinct(s: seq<int>)
  {
    forall i, j :: 0 <= i < j < |s| ==> s[i] != s[j]
  }

  lemma {:induction false} DistinctCard(s: seq<int>)
    requires Distinct(s)
    ensures |set x | x in s| == |s|
  {
    if |s| > 0 {
      var tail := s[1..];
      assert Distinct(tail) by {
        forall i, j | 0 <= i < j < |tail|
          ensures tail[i] != tail[j]
        {
          assert tail[i] == s[i + 1] && tail[j] == s[j + 1];
        }
      }
      DistinctCard(tail);
      assert (set x | x in s) == (set x | x in tail) + {s[0]};
      assert s[0] !in (set x | x in tail) by {
        forall i | 0 <= i < |tail|
          ensures tail[i] != s[0]
        {
          assert tail[i] == s[i + 1];
        }
      }
    }
  }

  /** Rows for distinct non-negative ids carry distinct hexadecimal ids. */
  lemma RowIdsDistinct(reg: Registry, order: seq<int>, now: int)
    requires Valid(reg, now) && Distinct(order)
    requires forall i :: 0 <= i < |order| ==> order[i] in reg
    ensures var rows := Export(reg, order);
      forall i, j :: 0 <= i < j < |rows| ==> rows[i].sid != rows[j].sid
  {
    var rows := Export(reg, order);
    forall i, j | 0 <= i < j < |rows|
      ensures rows[i].sid != rows[j].sid
    {
      assert ValidSession(order[i], reg[order[i]], now);
      assert ValidSession(order[j], reg[order[j]], now);
      assert rows[i].sid == Hex.ToHex(order[i]) && rows[j].sid == Hex.ToHex(order[j]);
      Hex.ToHexInjective(order[i], order[j]);
    }
  }

  /** Over an enumeration that lists every registered id exactly once, the
      export has one row per session, in enumeration order. */
  lemma ExportComplete(reg: Registry, order: seq<int>)
    requires Distinct(order) && forall s :: s in reg <==> s in order
    ensures var rows := Export(reg, order);
      && |rows| == |reg|
      && forall i :: 0 <= i < |rows| ==> rows[i] == Describe(order[i], reg[order[i]])
  {
    forall i | 0 <= i < |order|
      ensures order[i] in reg
    {
      assert order[i] in order;
    }
    DistinctCard(order);
    assert (set x | x in order) == reg.Keys by {
      forall x | x in reg.Keys
        ensures x in (set y | y in order)
      {
        assert x in order;
      }
    }
  }

  /** With the dictionary enumerating each session exactly once, an admin's
      monitor listing has one row per registered session, in that order,
      each describing the session it names; the rendered ids are pairwise
      distinct on a valid registry. */
  lemma MonitorListsEverySession(reg: Registry, sid: int, now: int, order: seq<int>)
    requires sid in reg && reg[sid].admin
    requires Distinct(order) && forall s :: s in reg <==> s in order
    ensures var r := Monitor(reg, sid, now, order);
      var rows := r.resp.sessions.value;
      && r.resp.success
      && |rows| == |reg|
      && (forall i :: 0 <= i < |rows| ==> rows[i] == Describe(order[i], r.reg[order[i]]))
      && (Valid(reg, now) ==> forall i, j :: 0 <= i < j < |rows| ==> rows[i].sid != rows[j].sid)
  {
    var r := Monitor(reg, sid, now, order);
    assert Refreshed(reg, r.reg, sid, now);
    assert r.resp.sessions == Some(Export(r.reg, order));
    assert |r.reg| == |reg| by {
      assert r.reg.Keys == reg.Keys;
    }
    ExportComplete(r.reg, order);
    if Valid(reg, now) {
      RefreshedValid(reg, r.reg, sid, now);
      RowIdsDistinct(r.reg, order, now);
    }
  }
}
